=== FILE: README.md ===
# Squids, modelled in Dafny

Squids is a small browser game engine. Entities ("squids", or `Thing`s in
the typed rewrite) get ids from a global counter and subscribe handlers to
event types on an event bus. A `setInterval` tick loop emits `physics`,
`tick` and `animate`; a `requestAnimationFrame` loop emits `draw`, walking the
draw listeners in priority order. Both loops start behind a 300-interval splash
screen. A debug overlay shows a flag and message rows. The engine exists in
three variants:

- the legacy `squids.js`;
- the TypeScript rewrite `ts_src/squids.ts`;
- its compiled output `src/squids.js`.

A game built on the engine adds:

- a scene manager that fades between scenes (`scripts/SceneManager.js`);
- a player that walks towards the pointer (`scripts/Player.js`);
- a monologue ticker (`zzz/scripts/Mono.js`).

The model is functional. Every handler that mutates shared state is a
function from the state before to the state after. A handler that throws
midway returns an outcome that keeps the mutations made before the throw.
The wall clock, the URL flag, the pointer position and the game's tick
counter are parameters. Modules follow the program's structure:

| module | what it models |
|---|---|
| `Basics` | option, result, error values |
| `Ordering` | ascending enumeration of integer keys, as `Object.values` lists them |
| `DrawOrder` | listener entries, the stable priority sort of `sort_for_draw`, filtering |
| `Vectors` | `vec` and its methods, and the typed `Vector` |
| `EventBus` | `listen`, `ignore`, `ignore_all`, `sort_for_draw`, `emit` |
| `World` | the id counter, construction, `all_things`, `destroy`, `destroy_things`, `draw_priority` |
| `Physics` | the typed `default_physics`, `default_animate`, `get_body` |
| `Collision` | the legacy collision tests and the legacy `default_physics` |
| `Debug` | `debug` in both engines, and the ctrl+` toggle |
| `Scheduler` | `interval`, `update`, `frame` and the splash countdown |
| `Scenes` | the scene manager |
| `Player` | the player's tick and pointer-down handlers |
| `Mono` | the monologue ticker |

The model keeps these behaviours of the code as written:

- After the fade, `nextScene` enters the new scene from the left. It enters
  from the right only while a previous-scene request is pending.
- The typed `default_physics` adds gravity while the speed is at or below
  the velocity limit.
- The typed constructor never adds the new entity to `all_things`. This is
  recorded under Findings below.

## Model

| member | source | states |
|---|---|---|
| Ordering.Ascending | ts_src/squids.ts:518-523 | the registry is walked in strictly increasing id order, and the walk lists exactly the registered ids, each once |
| Ordering.IncreasingUnique | ts_src/squids.ts:518-523 | two strictly increasing listings of the same ids are equal, so the ascending walk is the only one |
| DrawOrder.ValuesSpec | squids.js:484 | `Object.values` of a listener table lists exactly the table's entries, in strictly increasing id order, as many as the table has keys |
| DrawOrder.InsertStableSpec | squids.js:470 | one step of the stable sort adds exactly the new entry; when that entry has the largest id so far, the (priority, id) order is kept |
| DrawOrder.StableSortSpec | squids.js:470 | the stable sort on priority is a permutation of its input, and on an id-ascending input it gives (priority, id) order |
| DrawOrder.SortForDrawSpec | squids.js:468-471 | `sort_for_draw` holds exactly the draw table's entries, in ascending (priority, id) order |
| DrawOrder.FirstInDrawOrder | squids.js:468-471 | the head of a list in draw order is drawn no later than any of its members |
| DrawOrder.DrawOrderDistinct | squids.js:468-471 | no entity appears twice in a list in draw order |
| DrawOrder.DrawOrderUnique | squids.js:468-471 | two lists in draw order with the same entries are the same list |
| DrawOrder.SortForDrawIsTheDrawOrder | squids.js:468-471 | every list that has the draw table's entries in (priority, id) order is what `sort_for_draw` builds |
| DrawOrder.Select | squids.js:686-688 | filtering keeps exactly the entries whose id passes the test, and never grows the list |
| DrawOrder.SelectKeepsDrawOrder | squids.js:686-688 | filtering the sorted draw array keeps it in draw order |
| DrawOrder.SelectKeepsIdsIncreasing | squids.js:686-688 | filtering keeps ascending id order |
| DrawOrder.SelectTwice | squids.js:686-688 | filtering twice by the same test is filtering once |
| Vectors.Plus | ts_src/squids.ts:144-149 | subtracting the second vector from the sum gives back the first, component by component |
| Vectors.Minus | ts_src/squids.ts:151-156 | adding the subtrahend back to the difference restores the minuend |
| Vectors.Times | ts_src/squids.ts:158-163 | dividing the product by a divisor with no zero component restores the first factor |
| Vectors.Quotient | ts_src/squids.ts:165-170 | multiplying the quotient by the divisor restores the dividend |
| Vectors.Scaled | squids.js:124-134 | scaling by 0 gives the zero vector, and scaling by 1 changes nothing |
| Vectors.ScaledStep | ts_src/squids.ts:144-149 | adding one more step to `k` steps gives `k + 1` steps, which is how repeated moves by a velocity add up |
| Vectors.NewVec | squids.js:84-96 | a vector argument is copied, a lone number fills all three components, two numbers leave z at 0, and no argument gives the zero vector |
| Vectors.Sub | squids.js:111-121 | `sub` subtracts the triple `vec` builds from the same arguments, and adding that triple back undoes it |
| Vectors.Add | squids.js:98-108 | `add` adds the triple `vec` builds, and `sub` with the same arguments undoes it |
| Vectors.Div | squids.js:137-147 | multiplying the result of `div` by the divisor triple restores the vector |
| Vectors.Mlt | squids.js:124-134 | `mlt` is the component-wise product; with no argument it zeroes the vector; for a divisor with no zero component, `div` with the same arguments undoes it |
| Vectors.MltByScalar | squids.js:124-134 | `mlt(k)` with one number scales every component by `k` |
| Vectors.QMag | squids.js:149-151 | the legacy squared magnitude is non-negative and ignores z |
| Vectors.MakeVector | ts_src/squids.ts:138-142 | missing y and z components become 0, so `new Vector(x)` is `vec(x, 0)` |
| Vectors.LengthSq | ts_src/squids.ts:172-174 | the squared length is non-negative and is 0 for the zero vector |
| Vectors.SquareMonotone | ts_src/squids.ts:172-174 | between non-negative numbers, comparing their squares gives the same answer as comparing the numbers |
| Vectors.LengthComparison | ts_src/squids.ts:172-174 | comparing `length()` with a limit is the same as comparing the squared length with the squared limit |
| EventBus.KindNamed | ts_src/squids.ts:454-460 | an event type name denotes exactly one kind; the five reserved names give the built-in kinds, every other name gives a custom kind, and the kind's name is the original name |
| EventBus.NamesIdentifyKinds | ts_src/squids.ts:454-460 | two kinds have the same name exactly when they are the same kind |
| EventBus.Resort | squids.js:468-471 | re-sorting leaves every table alone and makes the draw array equal to what `sort_for_draw` builds from the current draw table |
| EventBus.SortDraw | squids.js:468-471 | `sort_for_draw` throws exactly when no draw table exists yet; otherwise it syncs the draw array with the table |
| EventBus.Listen | squids.js:649-664 | `listen` creates the type's table if needed, stores the handler under the entity's id (replacing any earlier one), leaves every other table unchanged, and re-syncs the draw array for "draw" |
| EventBus.ListenChecked | ts_src/squids.ts:577-593 | the typed `listen` fails with "Unknown event type" exactly for an undeclared type; otherwise it is the legacy `listen` and adds no table |
| EventBus.Ignore | squids.js:667-672 | `ignore` removes the entity's entry from that one table only, keeps every type, and leaves the draw array as it was |
| EventBus.IgnoreAll | squids.js:675-692 | `ignore_all` removes the entity from every table and, when a draw table exists, removes exactly its entries from the draw array |
| EventBus.Emit | squids.js:475-496 | emit dispatches nothing during the splash. A missing table gives an empty result. "draw" visits the sorted array; every other type visits exactly its table's entries, in ascending id order. Exactly the visited entries of active entities run |
| EventBus.EmitOrder | squids.js:488-494 | handlers run in ascending id order for ordinary types, and in draw order for "draw" while the array is in order |
| EventBus.LegacyFirstDrawListen | squids.js:649-664 | on the empty legacy bus re-sorting throws; the first draw listener creates the only table and leaves the array synced, holding just its entry |
| EventBus.EmitDrawIsDrawOrder | squids.js:485-487 | with a synced array, emitting "draw" visits exactly the draw listeners, each once, in (priority, id) order |
| EventBus.ListenLastWriteWins | squids.js:656 | listening twice for the same type is the same as listening once with the second handler |
| EventBus.TypedKindsStayDeclared | ts_src/squids.ts:577-593 | on the typed bus, `listen` succeeds exactly for the five declared types and never adds a type |
| EventBus.IgnoreDrawLeavesStaleEntry | squids.js:667-672 | after `ignore("draw")` the entity is gone from the draw table, but the next draw emit still calls its handler |
| EventBus.IgnoreAllKeepsSynced | squids.js:675-692 | `ignore_all` keeps the draw array equal to the sort of the reduced table |
| EventBus.ListenKeepsSynced | squids.js:649-664 | `listen` keeps the draw array synced with the draw table |
| EventBus.IgnoreOtherKeepsSynced | squids.js:667-672 | ignoring any type other than "draw" keeps the array synced |
| EventBus.ListenKeepsDrawCovered | squids.js:649-664 | `listen` keeps the draw array in draw order and holding every draw listener |
| EventBus.IgnoreKeepsDrawCovered | squids.js:667-672 | `ignore` keeps the draw array in draw order and holding every draw listener |
| EventBus.IgnoreAllKeepsDrawCovered | squids.js:675-692 | `ignore_all` keeps the draw array in draw order and holding every draw listener |
| EventBus.ListenKeepsRefs | squids.js:656 | listening on behalf of a known entity leaves every table entry and array entry referring to known entities |
| EventBus.IgnoreKeepsRefs | squids.js:667-672 | `ignore` introduces no reference to an unknown entity |
| EventBus.IgnoreAllKeepsRefs | squids.js:675-692 | `ignore_all` introduces no reference to an unknown entity |
| EventBus.SyncedIsCovered | squids.js:468-471 | a draw array synced with the table is in draw order and holds every draw listener |
| World.StartValid | ts_src/squids.ts:454-460 | the initial engine state satisfies every invariant, and its draw array is synced |
| World.NextId | ts_src/squids.ts:116-121 | `seq()` returns the counter plus one, which names no existing entity and exceeds every id issued so far |
| World.SubscribeDefaultsTables | ts_src/squids.ts:563-575 | the constructor stores the four default handlers under the new id, creates the four tables if needed, leaves every other table alone, and syncs the draw array |
| World.SubscribeDefaultsIsFourListens | ts_src/squids.ts:563-575 | the subscriptions are exactly four `listen` calls, in the constructor's order |
| World.SubscribeDefaultsRefs | ts_src/squids.ts:563-575 | the subscriptions refer only to known entities and the new one |
| World.ConstructTyped | ts_src/squids.ts:563-575 | the typed constructor issues the next id, stores the fresh entity with priority 0, and subscribes it to the defaults; `all_things` stays unchanged |
| World.ConstructTypedValid | ts_src/squids.ts:563-575 | construction issues an id larger than every earlier one and keeps every invariant of the engine state |
| World.Construct | squids.js:863-869 | the typed constructor followed by the legacy registration `all_things[id] = this`: the same id and state, with the new id added to the registry |
| World.ConstructValid | squids.js:863-869 | the registering constructor keeps every invariant and leaves the new entity registered |
| World.ThingListen | ts_src/squids.ts:577-593 | `thing.listen` fails with "Unknown event type" exactly for an undeclared type; otherwise only the bus changes, by `listen` |
| World.ThingListenValid | ts_src/squids.ts:577-593 | in a valid state, `listen` succeeds exactly for the declared types and keeps the state valid |
| World.ThingIgnore | ts_src/squids.ts:595-600 | `thing.ignore(kind)` removes the entity from that table and changes nothing but the bus |
| World.ThingIgnoreAll | ts_src/squids.ts:602-613 | after `ignore_all` no table holds the entity |
| World.Destroy | ts_src/squids.ts:735-739 | `destroy` removes the entity from the registry, from every table and from the draw array, and changes nothing else |
| World.DestroyIdempotent | ts_src/squids.ts:735-739 | destroying twice is destroying once |
| World.ThingIgnoreValid | ts_src/squids.ts:595-600 | `ignore` keeps every invariant of the engine state |
| World.ThingIgnoreAllValid | ts_src/squids.ts:602-613 | `ignore_all` keeps every invariant of the engine state |
| World.DestroyValid | ts_src/squids.ts:735-739 | `destroy` keeps every invariant of the engine state |
| World.DestroyEachSpec | ts_src/squids.ts:518-523 | destroying a list of entities removes exactly those entities from the registry, the tables and the draw array, and changes nothing else |
| World.DestroyThingsSpec | ts_src/squids.ts:518-523 | `destroy_things` empties the registry and removes exactly the registered entities from every table and from the draw array |
| World.DestroyEachValid | ts_src/squids.ts:518-523 | destroying a list of entities keeps every invariant |
| World.DestroyThingsValid | ts_src/squids.ts:518-523 | `destroy_things` keeps every invariant |
| World.DrawPriority | ts_src/squids.ts:615-624 | without an argument, reports the priority. With one, it stores the floor of the argument, changes no other priority or table, and syncs the draw array |
| World.DrawPriorityRoundTrip | ts_src/squids.ts:615-624 | reading a priority back gives the floor of what was set, and setting the same value again changes nothing |
| World.DrawPriorityValid | ts_src/squids.ts:615-624 | setting a priority keeps every invariant |
| World.EmitWorld | ts_src/squids.ts:473-501 | in the engine state, a visited handler runs exactly when its entity is active; nothing is dispatched during the splash |
| World.DestroyThingsKeepsTypedThing | ts_src/squids.ts:563-575 | as written, an entity from the typed constructor is still subscribed to tick after `destroy_things` |
| World.DestroyThingsMissesTypedThing | ts_src/squids.ts:563-575 | as written, the first tick after `destroy_things` still calls the tick handler of an entity from the typed constructor |
| World.DestroyThingsRemovesConstructed | squids.js:863-869 | with registration, `destroy_things` removes the new entity from every table and from the draw array |
| Physics.DefaultPhysics | ts_src/squids.ts:696-711 | inactive or unplaced entities are untouched. Otherwise the position moves by the velocity. Gravity is then added when the limit admits the speed; a missing gravity throws after the move |
| Physics.GravityStopsAboveLimit | ts_src/squids.ts:696-711 | the position always advances. Gravity is added exactly when the actual speed is at or below the numeric limit |
| Physics.CoastingMovesLinearly | ts_src/squids.ts:696-711 | with zero gravity, after `k` steps the entity has moved by `k` times its velocity, which is unchanged |
| Physics.InactiveStaysPut | ts_src/squids.ts:696-711 | an inactive entity never changes, however many steps run |
| Physics.DefaultAnimate | ts_src/squids.ts:722-733 | an active entity with an image loses it to the stub `Anim.next()`, or throws when it has no animation; any other entity is untouched |
| Physics.AnimateSettles | ts_src/squids.ts:722-733 | with an animation, animating twice is animating once |
| Physics.GetBody | ts_src/squids.ts:674-681 | an explicit body is returned as is. Otherwise the box sits at the position and takes the image's size (0 without an image). With no position the read throws |
| Physics.FreshEntityBody | ts_src/squids.ts:563-575 | a freshly constructed entity with a position reports its image's box, and physics leaves it in place |
| Collision.CollideSymmetric | squids.js:1028-1059 | collision is symmetric, and never happens when either squid has no body |
| Collision.MeetBounds | squids.js:1006-1025 | two closed intervals share a point exactly when neither lies wholly beyond the other |
| Collision.RectRectIsOverlap | squids.js:1006-1025 | two rectangles collide exactly when their scaled boxes overlap on both axes; touching edges count |
| Collision.RectRadIsBoundingSquareOverlap | squids.js:984-1002 | a rectangle and a circle collide exactly when the rectangle's box overlaps the circle's bounding square on both axes |
| Collision.BoundsOverlapAt | squids.js:984-1002 | the four rejection tests fail exactly when the box and the square overlap on both axes |
| Collision.RadRadIsStrictDistance | squids.js:971-980 | two circles collide exactly when the distance between their centres is strictly less than the sum of the scaled radii |
| Collision.TouchingRectsHit | squids.js:1006-1025 | unit squares whose edges touch collide |
| Collision.TouchingCirclesMiss | squids.js:971-980 | circles that only touch do not collide |
| Collision.PointHitsCircle | squids.js:1089-1095 | the point test hits a circle exactly when the point is strictly closer than its scaled radius plus 1 |
| Collision.PointHitsRect | squids.js:1089-1095 | the point test hits a rectangle exactly when the point lies in its scaled box grown by 1 on every side |
| Collision.Hits | squids.js:812-829 | the collide handlers called are exactly those of the other squids the moved squid touches, in ascending id order. There are none without a collide table or a truthy body |
| Collision.LegacyPhysics | squids.js:798-832 | an inactive squid is untouched. With a velocity limit, or with a null gravity, the step moves and then throws: legacy vectors have no `length()`, and `add(null)` reads the components of null. Otherwise it moves by the velocity, adds gravity (an undefined gravity adds nothing), and calls the handlers of the squids it then touches |
| Collision.AtRestStays | squids.js:798-832 | a squid at rest (no velocity, or the default zero velocity with no limit and zero or undefined gravity) keeps its state, and its step calls the handlers of the squids it touches |
| Collision.ContactIsMutual | squids.js:812-829 | for two squids at rest, including the legacy defaults, if `a`'s step calls `b`'s collide handler, then `b`'s step calls `a`'s |
| Collision.DefaultSquidAtRest | squids.js:775-777 | a squid with the legacy defaults (velocity and gravity `vec(0, 0)`, no limit) is at rest |
| Debug.SetRow | ts_src/squids.ts:84-101 | an array index sets that row and grows the array with holes; any other number leaves the rows alone |
| Debug.TypedDebug | ts_src/squids.ts:84-101 | a boolean sets the flag, a number sets one row, an array replaces the rows, and no argument changes nothing; the result is the flag afterwards |
| Debug.ToInt32 | squids.js:40 | the index coercion `args[0]` or-ed with 0 lies in the signed 32-bit range and is congruent to the truncated number modulo 2^32 |
| Debug.ToInt32OfInt32 | squids.js:40 | a whole number already in the signed 32-bit range is unchanged by the coercion |
| Debug.LegacyDebug | squids.js:38-51 | two arguments set the row numbered by the coerced index. One array replaces the rows; any other single value sets the flag to its truthiness. No argument changes nothing. The result is the flag afterwards |
| Debug.LegacyAgreesWithTyped | src/squids.js:80-94 | the two engines agree on `debug()`, `debug(flag)`, `debug(rows)` and `debug(n, msg)` for row numbers below 2^31 |
| Debug.LegacyIndexWraps | squids.js:38-51 | the engines part ways on odd indices. The legacy index is truncated and wrapped, so 2.5 sets row 2 and 2^32+5 sets row 5; the typed call with 2^32+5 changes no row. The legacy `debug(undefined)` clears the flag |
| Debug.NegativeRowIgnored | ts_src/squids.ts:84-101 | a negative row number sets no row in either engine |
| Debug.SetRowTwice | ts_src/squids.ts:84-101 | setting a row again with the same text changes nothing |
| Debug.KeyDown | squids.js:546-556 | the flag flips exactly on ctrl+`, and the rows never change |
| Debug.ToggleTwice | ts_src/squids.ts:1021-1030 | the same key pressed twice restores the overlay |
| Scheduler.Update | ts_src/squids.ts:938-942 | `update` emits physics, tick and animate, in that order, each with the same delta and count |
| Scheduler.Interval | ts_src/squids.ts:945-955 | every interval counts a tick and records the time. It emits nothing exactly while splashing, and counts the splash down. Afterwards it runs `update` with the time since the previous interval and the new tick count |
| Scheduler.RunSpec | ts_src/squids.ts:932-955 | over a run of intervals the tick count grows by the run's length. The first `splashing` intervals are silent. The `i`-th later emission has kind `i mod 3`, the tick count its interval reached, and the time since the interval before it |
| Scheduler.SplashThenUpdate | ts_src/squids.ts:932-936 | from start-up, 300 intervals emit nothing; the 301st emits the three updates with count 301 |
| Scheduler.NoSplashUpdatesAtOnce | ts_src/squids.ts:1054-1056 | with `nosplash=` the first interval emits at once, with count 1 and the time since start-up |
| Scheduler.UpdatesReachListeners | squids.js:475-477 | every emission of the tick loop is dispatched by the bus, because the loop only emits once the splash is over |
| Scheduler.Frame | ts_src/squids.ts:907-924 | every frame is counted. It draws the splash exactly while splashing; otherwise `draw` emits "draw" with the new frame count |
| Scheduler.FramesSpec | ts_src/squids.ts:916-924 | frames never end the splash. After it, successive frames draw with consecutive counts |
| Scenes.AddScene | scripts/SceneManager.js:69-76 | `addScene` throws exactly when the name is empty or the scene is missing; otherwise it registers the scene under the name and changes nothing else |
| Scenes.LoadScene | scripts/SceneManager.js:104-115 | `loadScene` throws exactly for an unregistered name, before anything changes. Otherwise it unloads the active scene, loads the named one from the given side, and makes it active |
| Scenes.UnloadScene | scripts/SceneManager.js:117-125 | `unloadScene` throws exactly for an unregistered name; otherwise it unloads that scene and leaves nothing active |
| Scenes.AddThenLoad | scripts/SceneManager.js:69-115 | a scene just added can be loaded at once; it becomes active, and its `load` is the last call made |
| Scenes.LoadThenUnload | scripts/SceneManager.js:104-125 | loading and then unloading a scene leaves nothing active, and the scene's `load` is followed by its `unload` |
| Scenes.NextScene | scripts/SceneManager.js:78-89 | `nextScene` answers true exactly when the active scene names a next scene; it then starts a fade-out towards it, and otherwise changes nothing |
| Scenes.PreviousScene | scripts/SceneManager.js:91-102 | `previousScene` answers true exactly when the active scene names a previous scene; it then starts a fade-out towards it, and otherwise changes nothing |
| Scenes.SceneTick | scripts/SceneManager.js:17-42 | the tick steps the opacity during a transition. At opaque it turns to fading in and loads the pending scene, from the right when a previous request is pending; a failed load throws. At transparent it ends the transition |
| Scenes.FadeOut | scripts/SceneManager.js:18-19 | below opaque, each tick of a fade-out only darkens the screen by one step |
| Scenes.FadeIn | scripts/SceneManager.js:18-19 | above transparent, each tick of a fade-in only lightens the screen by one step |
| Scenes.SceneTicksSplit | scripts/SceneManager.js:17-42 | running `j` and then `k` ticks is running `j + k` ticks, and a throw stops the run |
| Scenes.NextSceneTransition | scripts/SceneManager.js:17-42 | asking for the next scene fades out for 20 ticks. The 20th tick loads that scene from the left, or throws when it is unregistered. After 20 more ticks the transition is over |
| Scenes.PreviousSceneEntersFromRight | scripts/SceneManager.js:24-31 | going back loads the previous scene from the right |
| Scenes.BothPendingLoadsNextFromRight | scripts/SceneManager.js:24-31 | with both requests pending, the next scene wins but is loaded from the right |
| Scenes.FadeOpacity | scripts/SceneManager.js:63-65 | the black overlay is drawn exactly during a transition, at the current opacity in twentieths |
| Scenes.MarginBands | scripts/SceneManager.js:47-60 | as written, the left band appears exactly when the right margin is set, and the right band exactly when the left margin is set |
| Scenes.MarginBandsFixed | scripts/SceneManager.js:47-60 | as intended, each band appears exactly when its own margin is set, and no band is empty |
| Scenes.LeftMarginOnlyIsMisdrawn | scripts/SceneManager.js:51-59 | for a scene with only a left margin, the code as written draws only an empty right band; the intended overlay draws only the blue left band |
| Player.NextFrame | scripts/Player.js:27-32 | the frame counter stays within the eight walking frames, and moves only on every tenth tick while an animation plays |
| Player.PlayerTick | scripts/Player.js:25-60 | a step left of 300 is clamped, and x and the target both become 300. Otherwise the target stays, and x snaps onto it when the step ends within one step of it. While walking, the player is off its target and shows its walking frame; on arrival it shows the matching idle picture; without an animation the picture stays. The frame stays in range |
| Player.Stepped | scripts/Player.js:34-40 | one step moves 4 left when the target is at least a step to the left, 4 right when it lies right, and otherwise ends where it began |
| Player.PlayerTickFixed | scripts/Player.js:43-50 | with the snap before the clamp, the player never ends a tick left of x = 300: a snapped position left of 300 becomes 300 along with the target, any other is kept with the target. The pictures behave as written |
| Player.PointerDown | scripts/Player.js:62-74 | the floored pointer x becomes the target. The player faces and walks towards it, or keeps its picture when already there. The position never changes |
| Player.TickProgress | scripts/Player.js:34-50 | each tick either arrives (and stops the animation) or strictly nears the target. Right of the limit the target is kept, the player stays right of the limit, and each tick lands on the target or moves exactly one step closer |
| Player.TickLands | scripts/Player.js:34-50 | right of the limit, a tick lands on a target at most two steps away, and otherwise moves exactly one step towards it |
| Player.TickProgressFixed | scripts/Player.js:34-50 | the corrected tick either arrives or strictly nears the target, and keeps a target right of the limit |
| Player.Arrives | scripts/Player.js:25-60 | more ticks than the distance bring the player onto its target, standing, with no animation; a target right of the limit is reached unchanged |
| Player.SnapPassesLeftLimit | scripts/Player.js:43-50 | standing at 306, a click at 299.5 and one tick leave the player at 299 as written, and at 300 with the corrected order |
| Player.TicksKeepWalk | scripts/Player.js:52-59 | ticks never show the other direction's pictures: the walk's animation runs on, or it has stopped on the matching idle image |
| Player.WalksToPointer | scripts/Player.js:34-74 | a pointer-down right of the limit, then more ticks than the distance, leave the player standing on the floored pointer x with no animation, facing the way it walked |
| Player.LeftLimitBrokenFromStart | scripts/Player.js:43-50 | from the start, a click at 306, enough ticks to arrive, a click at 299.5 and one tick leave the player at 299, left of the limit |
| Mono.ShippedWellFormed | zzz/scripts/Mono.js:4-22 | the shipped stories have positive pauses and at least one line each |
| Mono.MonoStart | zzz/scripts/Mono.js:24-35 | at load the ticker shows the first line of the first story and no story is over |
| Mono.Advance | zzz/scripts/Mono.js:42-71 | a firing after a story's pause moves to the next story's first line, or to "The End". Within a story it shows the next line, or the blank pause once the pacing story's lines run out |
| Mono.MonoTick | zzz/scripts/Mono.js:37-73 | as written, the ticker fires on the ticks that are multiples of the first story's current pause, and advances with the first story's line count |
| Mono.FixedTick | zzz/scripts/Mono.js:37-73 | as intended, the ticker fires and advances with the current story's pauses and line count |
| Mono.MonoTickKeepsStoryLine | zzz/scripts/Mono.js:37-73 | as written, the story index never goes back, and the ticker shows only the blank, "The End" or a line of the current story, provided no story is shorter than the first |
| Mono.ThirdLineNeverShown | zzz/scripts/Mono.js:59-71 | as written, whatever the ticks, the shipped game never shows the third line of the second story |
| Mono.StartShowsFirstTwo | zzz/scripts/Mono.js:24-35 | the shipped game starts within the first two lines of the first story |
| Mono.FixedAdvancesSplit | zzz/scripts/Mono.js:37-73 | `j` firings followed by `k` firings are `j + k` firings |
| Mono.WalkStory | zzz/scripts/Mono.js:59-71 | within a story, `j` firings from its first line show its line `j` |
| Mono.ReachStory | zzz/scripts/Mono.js:42-57 | after one firing per line and one per pause of the earlier stories, the corrected ticker shows the first line of story `i` |
| Mono.FixedShowsEveryLine | zzz/scripts/Mono.js:37-73 | the corrected ticker shows line `j` of story `i` after `Offset(i) + j` firings, so every line of every story is shown |
| Mono.FixedShowsThirdLine | zzz/scripts/Mono.js:59-71 | in the shipped game, the corrected ticker reaches the line that the code as written never shows |

## Left out

- Canvas drawing is not modelled: images, text, rectangles, the splash screen's picture and `draw_debug`. The model keeps only what decides *whether* and *in which order* something is drawn.
- Asset loading, audio, `ImgSet` and `Anim` timing are not modelled. `ImgSet` is not part of this model, and each walking animation is taken to have 8 frames, as its constructor call says.
- DOM input is not modelled, apart from the ctrl+` toggle of the keydown handler. This covers key tables, the `keydown`/`keyup` emits, and pointer event plumbing.
- Timers are not modelled: `setInterval`, `requestAnimationFrame` and `Date.now`. The clock readings are parameters.
- Trigonometry and rotation helpers are not modelled. They are floating point, and no modelled operation depends on them.
- The typed engine's collision functions are not modelled. Each of them only throws "not implemented", and no modelled handler calls them. The collision tests are modelled on the legacy engine.
- Collision.LegacyPhysics models a squid with a numeric velocity limit only as a throw after the move, because legacy vectors have no `length()`. The gravity-under-limit behaviour is modelled on the typed engine (Physics.DefaultPhysics). A gravity that is a plain number, which `add` would spread over all three components, is left out.
- NaN and the infinities are not modelled. Numbers are reals, so the model has no rounding or float drift.
- Vectors.Quotient and Vectors.Div require divisors with no zero component. JavaScript would produce Infinity or NaN there.
- Debug.LegacyDebug takes only a number as the first of two arguments. Coercing strings and other non-numbers to an index is left out.
- EventBus.ListenChecked treats every undeclared type name as unknown, and so do EventBus.TypedKindsStayDeclared, World.ThingListen and World.ThingListenValid. Names of inherited `Object.prototype` properties ("toString", "constructor", "hasOwnProperty", "__proto__") are left out. The source's `listeners[evt]` lookup finds them on the table object, so the typed `listen` does not throw for them and stores the handler on the inherited object. The legacy `listen` (EventBus.Listen) likewise writes into that object instead of creating a table. Modelling this would need shared prototype objects.
- Scenes.AddScene treats scene names as plain strings. Names that collide with `Object.prototype` properties are left out.
- Scenes: scenes are taken to have `load` and `unload` functions. The optional-call `?.()` on a missing function is left out.
- Scenes.FadeOpacity keeps the opacity as whole twentieths. Steps of 0.05 reach 1 after 20 steps up and 0 after 20 steps down. The float drift of a fade interrupted midway is left out.
- Compiler helpers in `src/squids.js` are not modelled (`__awaiter`, `__generator`). `src/squids.js` is the compiled typed engine, and it behaves as `ts_src/squids.ts` does on the modelled operations.
- The game bootstrap (`game.js`, `globals.js`, the background and the scene scripts) and `console.log` output are not modelled.
- EventBus.Emit assumes every handler returns normally. In the source a throwing handler aborts `emit`, so the listeners after it are not called. The handlers are modelled on their own, with their throws (Physics.DefaultPhysics, Physics.DefaultAnimate, Scenes.SceneTick), but the bus is not told which handler threw.
- EventBus.Emit and World.EmitWorld read activity once, before the walk. The source reads `sq.active` at each visit, so a handler that deactivates a later listener's entity stops that listener's call, and one that reactivates it allows it. Handlers changing another entity's `active` during a dispatch are not modelled. Changes to the tables during a dispatch do agree with the model: `Object.values` walks a copy of the table, and `sort_for_draw` and `ignore_all` assign a new draw array, so `listen`, `ignore`, `ignore_all` and `destroy` inside a handler leave the walk in progress unchanged.
- Physics.DefaultPhysics treats vectors as values. The typed handler adds in place (`position.add(velocity)`, `velocity.add(gravity)`), and the typed constructor keeps the caller's `position` object. Aliased vectors are therefore not modelled: two entities built with the same vector both move it, and a velocity that is the position object doubles on each step. The same holds for Physics.GravityStopsAboveLimit and Physics.CoastingMovesLinearly. The legacy handler copies before adding (`vec(self.position).add(...)`), so Collision.LegacyPhysics is unaffected.
- Scheduler.Update and Scheduler.Interval assume the emits return. In the source an exception from a "physics" or "tick" handler leaves `update` and `interval` early, so the later emits of that interval do not happen. The tick count and `ts_last` are already updated by then, as modelled.
- World.Construct gives the registered entity the typed defaults (no velocity, no gravity, position as passed). The legacy constructor's other defaults are left out: position `vec(0, 0)`, and velocity and gravity `vec(0, 0)`. The legacy defaults appear in Collision.DefaultSquidAtRest.
- Scheduler.Frame and Scheduler.Interval model the typed loops. The legacy `frame` and `interval` call the overridable hooks `Squids.on_draw` and `Squids.on_time` instead, and a game may replace them. The hooks' defaults emit the same events, except that the default `on_draw` emits "draw" without the frame count. Replaced hooks are not modelled.
- Mono.MonoTick and Player.PlayerTick take the game's tick counter as a parameter. Its own listener is not modelled.

## Findings

| source | as written | input that shows it | evidently intended | confidence | as-written member | corrected member |
|---|---|---|---|---|---|---|
| ts_src/squids.ts:563-575 | the typed constructor never stores the entity in `all_things`, so `destroy_things` and `reset` never destroy it | any entity built with `new Thing()`, followed by `destroy_things()` and a tick | register the entity as the legacy constructor does (`all_things[id] = this`) | not executed | World.DestroyThingsKeepsTypedThing | World.DestroyThingsRemovesConstructed |
| zzz/scripts/Mono.js:27 | `currentStory` is fixed to `stories[0]` at load, so the first story's line count and pauses govern every story | the shipped stories: the second story's third line is never shown | read the current story's line count and pauses | not executed | Mono.ThirdLineNeverShown | Mono.FixedShowsThirdLine |
| scripts/Player.js:43-50 | the snap onto the target runs after the clamp to x = 300, so a target just left of the limit is reached | standing at 306, a click at 299.5, then one tick: x becomes 299 | clamp after the snap, so that x never drops below 300 | not executed | Player.LeftLimitBrokenFromStart | Player.PlayerTickFixed |
| scripts/SceneManager.js:51-59 | the debug band of each margin is drawn when the *other* margin is set | a scene with limits {left: 100, right: 0}: no left band, and an empty right band | draw each band when its own margin is set | not executed | Scenes.LeftMarginOnlyIsMisdrawn | Scenes.MarginBandsFixed |

=== FILE: basics.dfy ===
/** Failure-carrying values shared by every module of the model. */
module Basics {

  /** An optional value: `None` stands for JavaScript's `undefined`/`null`. */
  datatype Option<T> = None | Some(value: T)

  /** The errors the engine and the game scripts throw. */
  datatype Error =
    | UnknownEventType(kind: string)   // `listen` on a name outside the pre-declared set
    | TypeError                        // a property read on `undefined`
    | MissingSceneArgument             // `addScene` with a falsy name or scene
    | NoSuchScene(name: string)        // `loadScene`/`unloadScene` on an unregistered name

  /** Either a value or the error an operation threw. */
  datatype Result<T> = Ok(value: T) | Err(error: Error)
}

=== FILE: bus.dfy ===
/** The engine's event bus.

    `listeners` maps an event type to a table of the entities listening for
    it; `sortedDraw` is the separate array of draw listeners in drawing order,
    rebuilt by `sort_for_draw` whenever a draw listener is added or a priority
    changes. The legacy engine creates a type's table the first time anything
    listens for it; the typed engine declares five tables up front and rejects
    every other type name. */
module EventBus {
  import opened Basics
  import opened DrawOrder

  /** An event type name. The names the engine itself uses get their own
      constructor; `Other` carries any other name, which only the legacy bus
      accepts. Names of inherited `Object.prototype` properties, which the
      engines' `listeners[evt]` lookup finds on every object, are not
      distinguished: the model treats them as any other name. */
  datatype Kind = Physics | Tick | Animate | Draw | PointerDown | Other(name: string)

  /** The names the engine uses for its own event types. */
  predicate Reserved(name: string) {
    name in {"physics", "tick", "animate", "draw", "pointerdown"}
  }

  /** A kind as `KindNamed` produces it: `Other` never carries a reserved name. */
  predicate Canonical(k: Kind) {
    k.Other? ==> !Reserved(k.name)
  }

  /** The kind a type name denotes. */
  function KindNamed(name: string): (k: Kind)
    ensures Canonical(k)
    ensures k.Other? <==> !Reserved(name)
    ensures NameOf(k) == name
  {
    if name == "physics" then Physics
    else if name == "tick" then Tick
    else if name == "animate" then Animate
    else if name == "draw" then Draw
    else if name == "pointerdown" then PointerDown
    else Other(name)
  }

  /** The type name a kind stands for. */
  function NameOf(k: Kind): string {
    match k
    case Physics => "physics"
    case Tick => "tick"
    case Animate => "animate"
    case Draw => "draw"
    case PointerDown => "pointerdown"
    case Other(name) => name
  }

  /** Naming is one-to-one on event types. */
  lemma NamesIdentifyKinds(a: Kind, b: Kind)
    requires Canonical(a) && Canonical(b)
    ensures NameOf(a) == NameOf(b) <==> a == b
  {
  }

  /** The event types the typed engine declares. */
  const DeclaredKinds: set<Kind> := {Physics, Tick, Animate, Draw, PointerDown}

  datatype Bus = Bus(listeners: map<Kind, Table>, sortedDraw: seq<Entry>)

  /** The legacy bus before anything listens. */
  const LegacyStart: Bus := Bus(map[], [])

  /** The typed bus: the five declared types, each with an empty table. */
  const TypedStart: Bus := Bus(map k | k in DeclaredKinds :: map[], [])

  /** The table of `kind`, or no listeners when the type does not exist. */
  function TableOf(b: Bus, kind: Kind): Table {
    if kind in b.listeners then b.listeners[kind] else map[]
  }

  /** The sorted draw array is exactly what `sort_for_draw` would build now. */
  predicate Synced(b: Bus, pri: map<Id, int>) {
    Draw in b.listeners && b.sortedDraw == SortForDraw(b.listeners[Draw], pri)
  }

  /** The weaker fact every operation keeps: the draw array is in drawing
      order and holds every current draw listener (it may also hold entries
      that `ignore("draw")` removed from the table only). */
  predicate DrawCovered(b: Bus, pri: map<Id, int>) {
    InDrawOrder(b.sortedDraw, pri)
    && forall j :: j in TableOf(b, Draw) ==> Entry(j, TableOf(b, Draw)[j]) in b.sortedDraw
  }

  /** `t'` is `t` with `f` stored under `id`, replacing any earlier entry. */
  predicate Stores(t': Table, t: Table, id: Id, f: Handler) {
    t' == t[id := f]
  }

  /** `t'` is `t` without the entry of `id`. */
  predicate Drops(t': Table, t: Table, id: Id) {
    t' == t - {id}
  }

  /** Only `kind`'s table may change; every other table is as it was. */
  predicate OthersUnchanged(b: Bus, r: Bus, kind: Kind) {
    forall k :: k in b.listeners && k != kind ==> k in r.listeners && r.listeners[k] == b.listeners[k]
  }

  /** `sort_for_draw` on a bus that has a draw table. */
  function Resort(b: Bus, pri: map<Id, int>): (r: Bus)
    requires Draw in b.listeners
    ensures r.listeners == b.listeners && Synced(r, pri)
  {
    b.(sortedDraw := SortForDraw(b.listeners[Draw], pri))
  }

  /** `sort_for_draw`. `Object.values(undefined)` throws, so it fails when no
      draw table exists yet. */
  function SortDraw(b: Bus, pri: map<Id, int>): (r: Result<Bus>)
    ensures r.Err? <==> Draw !in b.listeners
    ensures r.Ok? ==> r.value.listeners == b.listeners && Synced(r.value, pri)
  {
    if Draw in b.listeners then Ok(Resort(b, pri)) else Err(TypeError)
  }

  /** The table update of `listen`: the type's table is created if needed
      and `f` is stored under the entity's id. */
  function Store(b: Bus, kind: Kind, id: Id, f: Handler): Bus
  {
    b.(listeners := b.listeners[kind := TableOf(b, kind)[id := f]])
  }

  /** Legacy `listen(kind, f)`: creates the type's table if needed, stores
      `f` under the entity's id (replacing any earlier handler) and re-sorts
      when the type is "draw". */
  function Listen(b: Bus, kind: Kind, id: Id, f: Handler, pri: map<Id, int>): (r: Bus)
    ensures r.listeners.Keys == b.listeners.Keys + {kind}
    ensures kind in r.listeners && Stores(r.listeners[kind], TableOf(b, kind), id, f)
    ensures OthersUnchanged(b, r, kind)
    ensures kind == Draw ==> Synced(r, pri)
    ensures kind != Draw ==> r == Store(b, kind, id, f)
  {
    var s := Store(b, kind, id, f);
    assert s.listeners.Keys == b.listeners.Keys + {kind};
    assert Stores(s.listeners[kind], TableOf(b, kind), id, f);
    assert OthersUnchanged(b, s, kind);
    if kind == Draw then Resort(s, pri) else s
  }

  /** Typed `listen(kind, f)`: only a declared type is accepted; anything
      else throws "Unknown event type". */
  function ListenChecked(b: Bus, kind: Kind, id: Id, f: Handler, pri: map<Id, int>): (r: Result<Bus>)
    ensures r.Err? <==> kind !in b.listeners
    ensures r.Err? ==> r.error == UnknownEventType(NameOf(kind))
    ensures r.Ok? ==> r.value == Listen(b, kind, id, f, pri) && r.value.listeners.Keys == b.listeners.Keys
  {
    if kind in b.listeners then Ok(Listen(b, kind, id, f, pri))
    else Err(UnknownEventType(NameOf(kind)))
  }

  /** `ignore(kind)`: deletes the entity's entry from that table only; the
      sorted draw array is left as it is. */
  function Ignore(b: Bus, kind: Kind, id: Id): (r: Bus)
    ensures r.listeners.Keys == b.listeners.Keys
    ensures kind in r.listeners ==> Drops(r.listeners[kind], b.listeners[kind], id)
    ensures OthersUnchanged(b, r, kind)
    ensures r.sortedDraw == b.sortedDraw
  {
    if kind in b.listeners then b.(listeners := b.listeners[kind := b.listeners[kind] - {id}])
    else b
  }

  /** `ignore_all()`: deletes the entity from every table and, when a draw
      table exists, filters it out of the sorted draw array. */
  function IgnoreAll(b: Bus, id: Id): (r: Bus)
    ensures r.listeners.Keys == b.listeners.Keys
    ensures forall k :: k in r.listeners ==> Drops(r.listeners[k], b.listeners[k], id)
    ensures Draw in b.listeners ==> forall e :: e in r.sortedDraw <==> e in b.sortedDraw && e.id != id
    ensures Draw !in b.listeners ==> r.sortedDraw == b.sortedDraw
  {
    var tables := map k | k in b.listeners :: b.listeners[k] - {id};
    var sorted := if Draw in b.listeners then Select(b.sortedDraw, j => j != id) else b.sortedDraw;
    Bus(tables, sorted)
  }

  /** What one `emit` walked: every listener entry it visited (the array it
      returns) and the handlers it actually called. */
  datatype Dispatch = Dispatch(visited: seq<Entry>, invoked: seq<Entry>)

  /** `emit(kind, ...)`. While the splash screen runs it returns undefined
      and calls nothing; a type without a table gives `[]`; the draw type
      walks the sorted draw array, every other type its table in ascending id
      order. Handlers of inactive entities are skipped but still returned.
      `active` is the set of active entities when the walk starts; the
      handlers are not modelled, so none of them changes it midway. */
  function Emit(b: Bus, splashing: nat, kind: Kind, active: set<Id>): (r: Option<Dispatch>)
    ensures r.None? <==> splashing > 0
    ensures r.Some? && kind !in b.listeners ==> r.value == Dispatch([], [])
    ensures r.Some? && kind in b.listeners && kind != Draw ==>
      IdsIncreasing(r.value.visited)
      && forall e :: e in r.value.visited <==> Holds(b.listeners[kind], e)
    ensures r.Some? && kind in b.listeners && kind == Draw ==> r.value.visited == b.sortedDraw
    ensures r.Some? ==> forall e :: e in r.value.invoked <==> e in r.value.visited && e.id in active
  {
    if splashing > 0 then None
    else if kind !in b.listeners then Some(Dispatch([], []))
    else
      ValuesSpec(b.listeners[kind]);
      var objs := if kind == Draw then b.sortedDraw else Values(b.listeners[kind]);
      Some(Dispatch(objs, Select(objs, j => j in active)))
  }

  // Properties relating the operations.

  /** Handlers run in the order they are visited: ascending id for ordinary
      types, and (priority, id) order for draw when the array is synced. */
  lemma EmitOrder(b: Bus, kind: Kind, active: set<Id>, pri: map<Id, int>)
    requires kind in b.listeners
    ensures kind != Draw ==> IdsIncreasing(Emit(b, 0, kind, active).value.invoked)
    ensures kind == Draw && DrawCovered(b, pri) ==> InDrawOrder(Emit(b, 0, kind, active).value.invoked, pri)
  {
    var objs := if kind == Draw then b.sortedDraw else Values(b.listeners[kind]);
    if kind != Draw {
      ValuesSpec(b.listeners[kind]);
      SelectKeepsIdsIncreasing(objs, j => j in active);
    } else if DrawCovered(b, pri) {
      SelectKeepsDrawOrder(objs, j => j in active, pri);
    }
  }

  /** On the legacy bus nothing exists before the first `listen`: re-sorting
      then throws (so does `draw_priority`, which re-sorts), and the first
      draw listener creates the table and leaves the array synced. */
  lemma LegacyFirstDrawListen(id: Id, f: Handler, pri: map<Id, int>)
    ensures SortDraw(LegacyStart, pri).Err?
    ensures var b := Listen(LegacyStart, Draw, id, f, pri);
      b.listeners.Keys == {Draw} && Synced(b, pri) && b.sortedDraw == [Entry(id, f)]
  {
    var b := Listen(LegacyStart, Draw, id, f, pri);
    SortForDrawSpec(b.listeners[Draw], pri);
    assert Entry(id, f) in b.sortedDraw;
  }

  /** With a synced array, emitting "draw" visits exactly the draw listeners,
      each once, lowest priority first and ties broken by ascending id. */
  lemma EmitDrawIsDrawOrder(b: Bus, active: set<Id>, pri: map<Id, int>, s: seq<Entry>)
    requires Synced(b, pri)
    requires InDrawOrder(s, pri) && forall e :: e in s <==> Holds(b.listeners[Draw], e)
    ensures Emit(b, 0, Draw, active).value.visited == s
  {
    SortForDrawIsTheDrawOrder(b.listeners[Draw], pri, s);
  }

  /** Listening again for the same type replaces the earlier handler: the
      last write wins and leaves no trace of the first. */
  lemma ListenLastWriteWins(b: Bus, kind: Kind, id: Id, f: Handler, g: Handler, pri: map<Id, int>)
    ensures Listen(Listen(b, kind, id, f, pri), kind, id, g, pri) == Listen(b, kind, id, g, pri)
  {
    var t: Table := TableOf(b, kind);
    var mid := Store(b, kind, id, f);
    var twice := Store(mid, kind, id, g);
    var once := Store(b, kind, id, g);
    assert TableOf(mid, kind) == t[id := f];
    assert t[id := f][id := g] == t[id := g];
    assert twice.listeners == once.listeners;
    if kind != Draw {
      assert Listen(b, kind, id, f, pri) == mid;
      assert Listen(mid, kind, id, g, pri) == twice == once;
    } else {
      var sorted := Resort(mid, pri);
      assert Listen(b, kind, id, f, pri) == sorted;
      assert Store(sorted, kind, id, g).listeners == once.listeners;
    }
  }

  /** The typed bus never gains a type: every `listen` either fails or keeps
      the five declared tables. */
  lemma TypedKindsStayDeclared(b: Bus, kind: Kind, id: Id, f: Handler, pri: map<Id, int>)
    requires b.listeners.Keys == DeclaredKinds
    ensures ListenChecked(b, kind, id, f, pri).Ok? <==> kind in DeclaredKinds
    ensures ListenChecked(b, kind, id, f, pri).Ok? ==>
      ListenChecked(b, kind, id, f, pri).value.listeners.Keys == DeclaredKinds
  {
  }

  /** `ignore("draw")` leaves the removed listener in the sorted array: the
      next draw emit still calls it, until something re-sorts. */
  lemma IgnoreDrawLeavesStaleEntry(b: Bus, e: Entry, active: set<Id>, pri: map<Id, int>)
    requires Synced(b, pri) && Holds(b.listeners[Draw], e) && e.id in active
    ensures e.id !in Ignore(b, Draw, e.id).listeners[Draw]
    ensures e in Emit(Ignore(b, Draw, e.id), 0, Draw, active).value.invoked
  {
    SortForDrawSpec(b.listeners[Draw], pri);
  }

  /** `ignore_all` keeps the draw array exactly what `sort_for_draw` would
      build from the reduced table. */
  lemma IgnoreAllKeepsSynced(b: Bus, id: Id, pri: map<Id, int>)
    requires Synced(b, pri)
    ensures Synced(IgnoreAll(b, id), pri)
  {
    var r := IgnoreAll(b, id);
    SortForDrawSpec(b.listeners[Draw], pri);
    SelectKeepsDrawOrder(b.sortedDraw, j => j != id, pri);
    forall e
      ensures e in r.sortedDraw <==> Holds(r.listeners[Draw], e)
    {
    }
    SortForDrawIsTheDrawOrder(r.listeners[Draw], pri, r.sortedDraw);
  }

  /** Listening keeps the draw array synced: for draw by re-sorting, for any
      other type by leaving both the draw table and the array alone. */
  lemma ListenKeepsSynced(b: Bus, kind: Kind, id: Id, f: Handler, pri: map<Id, int>)
    requires Synced(b, pri)
    ensures Synced(Listen(b, kind, id, f, pri), pri)
  {
  }

  /** Ignoring any type other than draw keeps the array synced. */
  lemma IgnoreOtherKeepsSynced(b: Bus, kind: Kind, id: Id, pri: map<Id, int>)
    requires Synced(b, pri) && kind != Draw
    ensures Synced(Ignore(b, kind, id), pri)
  {
  }

  /** Listening keeps the draw array covering the draw table. */
  lemma ListenKeepsDrawCovered(b: Bus, kind: Kind, id: Id, f: Handler, pri: map<Id, int>)
    requires DrawCovered(b, pri)
    ensures DrawCovered(Listen(b, kind, id, f, pri), pri)
  {
    var l := Listen(b, kind, id, f, pri);
    if kind != Draw {
      assert TableOf(l, Draw) == TableOf(b, Draw);
    } else {
      SortForDrawSpec(l.listeners[Draw], pri);
    }
  }

  /** `ignore` only shrinks a table, so the draw array still covers it. */
  lemma IgnoreKeepsDrawCovered(b: Bus, kind: Kind, id: Id, pri: map<Id, int>)
    requires DrawCovered(b, pri)
    ensures DrawCovered(Ignore(b, kind, id), pri)
  {
    var i := Ignore(b, kind, id);
    forall j | j in TableOf(i, Draw)
      ensures Entry(j, TableOf(i, Draw)[j]) in i.sortedDraw
    {
      assert j in TableOf(b, Draw) && TableOf(i, Draw)[j] == TableOf(b, Draw)[j];
    }
  }

  /** `ignore_all` filters the draw array in step with the tables. */
  lemma IgnoreAllKeepsDrawCovered(b: Bus, id: Id, pri: map<Id, int>)
    requires DrawCovered(b, pri)
    ensures DrawCovered(IgnoreAll(b, id), pri)
  {
    var a := IgnoreAll(b, id);
    if Draw in b.listeners {
      SelectKeepsDrawOrder(b.sortedDraw, j => j != id, pri);
      forall j | j in TableOf(a, Draw)
        ensures Entry(j, TableOf(a, Draw)[j]) in a.sortedDraw
      {
        assert Drops(a.listeners[Draw], b.listeners[Draw], id);
        assert Entry(j, TableOf(b, Draw)[j]) in b.sortedDraw;
      }
    }
  }

  /** Every listener entry, and every entry of the draw array, belongs to
      one of the entities `ids`. */
  predicate RefsIn(b: Bus, ids: set<Id>) {
    (forall k :: k in b.listeners ==> b.listeners[k].Keys <= ids)
    && (forall e :: e in b.sortedDraw ==> e.id in ids)
  }

  /** Listening on behalf of a known entity refers only to known entities. */
  lemma ListenKeepsRefs(b: Bus, kind: Kind, id: Id, f: Handler, pri: map<Id, int>, ids: set<Id>)
    requires RefsIn(b, ids) && id in ids
    ensures RefsIn(Listen(b, kind, id, f, pri), ids)
  {
    var l := Listen(b, kind, id, f, pri);
    forall k | k in l.listeners
      ensures l.listeners[k].Keys <= ids
    {
      if k == kind {
        assert l.listeners[k].Keys == TableOf(b, kind).Keys + {id};
      } else {
        assert l.listeners[k] == b.listeners[k];
      }
    }
    if kind == Draw {
      SortForDrawSpec(l.listeners[Draw], pri);
      forall e | e in l.sortedDraw
        ensures e.id in ids
      {
        assert Holds(l.listeners[Draw], e);
      }
    } else {
      assert l.sortedDraw == b.sortedDraw;
    }
  }

  /** Removing entries refers to no new entity. */
  lemma IgnoreKeepsRefs(b: Bus, kind: Kind, id: Id, ids: set<Id>)
    requires RefsIn(b, ids)
    ensures RefsIn(Ignore(b, kind, id), ids)
  {
  }

  lemma IgnoreAllKeepsRefs(b: Bus, id: Id, ids: set<Id>)
    requires RefsIn(b, ids)
    ensures RefsIn(IgnoreAll(b, id), ids)
  {
  }

  /** A synced bus is covered. */
  lemma SyncedIsCovered(b: Bus, pri: map<Id, int>)
    requires Synced(b, pri)
    ensures DrawCovered(b, pri)
  {
    SortForDrawSpec(b.listeners[Draw], pri);
  }
}

=== FILE: collision.dfy ===
/** The legacy engine's collision tests and its `default_physics`.

    A squid's collision `body` is null (none), a number (a circle of that
    radius) or a vector (a rectangle of that width and height), all scaled by
    the squid's `scale` and centred on its position. Only x and y matter. */
module Collision {
  import opened Basics
  import opened Vectors
  import opened DrawOrder

  datatype Body = NoBody | Circle(radius: real) | Rect(size: Vec)

  /** The argument `default_physics` hands to `add`: a field left
      undefined takes `add`'s default of 0 and adds nothing, while `null` is
      read as a vector and throws. */
  datatype Addend = Undefined | Null | Value(v: Vec)

  /** The legacy squid fields that physics and collision read. The legacy
      constructor always sets a position (default `vec(0, 0)`). */
  datatype Squid = Squid(
    active: bool,
    position: Vec,
    velocity: Option<Vec>,
    gravity: Addend,
    velocityLimit: Option<real>,
    scale: real,
    body: Body)

  function Abs(a: real): real {
    if a < 0.0 then -a else a
  }

  /** `collide_rad_rad`: strictly closer than the sum of the scaled radii. */
  predicate RadRad(a: Squid, b: Squid)
    requires a.body.Circle? && b.body.Circle?
  {
    var rr := a.body.radius * a.scale + b.body.radius * b.scale;
    var xx := Abs(b.position.x - a.position.x);
    var yy := Abs(b.position.y - a.position.y);
    xx * xx + yy * yy < rr * rr
  }

  /** `collide_rect_rad`: the circle's bounding square is not entirely to
      one side of the rectangle; touching edges count. */
  predicate RectRad(a: Squid, b: Squid)
    requires a.body.Rect? && b.body.Circle?
  {
    RectRadAt(a.position, (a.body.size.x * a.scale) * 0.5, (a.body.size.y * a.scale) * 0.5,
              b.position, b.body.radius * b.scale)
  }

  /** The four comparisons of `collide_rect_rad`, for a rectangle at `p1`
      with half sizes `hw`, `hh` and a circle at `p2` with radius `rad`. */
  predicate RectRadAt(p1: Vec, hw: real, hh: real, p2: Vec, rad: real) {
    !(p2.x + rad < p1.x - hw) && !(p2.x - rad > p1.x + hw)
    && !(p2.y + rad < p1.y - hh) && !(p2.y - rad > p1.y + hh)
  }

  /** `collide_rect_rect`: the centres are no further apart on each axis
      than half the summed sizes; touching edges count. The scaled size
      `vec(body).mlt(scale)` is `Scaled(body, scale)` (see `MltByScalar`). */
  predicate RectRect(a: Squid, b: Squid)
    requires a.body.Rect? && b.body.Rect?
  {
    var size1 := Scaled(a.body.size, a.scale);
    var size2 := Scaled(b.body.size, b.scale);
    Abs(a.position.x - b.position.x) <= (size1.x + size2.x) * 0.5
    && Abs(a.position.y - b.position.y) <= (size1.y + size2.y) * 0.5
  }

  /** `collide_squids`: no collision without two bodies; a circle against a
      rectangle is tested with the rectangle first. */
  predicate CollideSquids(a: Squid, b: Squid) {
    match (a.body, b.body)
    case (NoBody, _) => false
    case (_, NoBody) => false
    case (Circle(_), Circle(_)) => RadRad(a, b)
    case (Circle(_), Rect(_)) => RectRad(b, a)
    case (Rect(_), Circle(_)) => RectRad(a, b)
    case (Rect(_), Rect(_)) => RectRect(a, b)
  }

  /** Collision is symmetric, and needs two bodies. */
  lemma CollideSymmetric(a: Squid, b: Squid)
    ensures CollideSquids(a, b) == CollideSquids(b, a)
    ensures a.body.NoBody? || b.body.NoBody? ==> !CollideSquids(a, b)
  {
    if a.body.Circle? && b.body.Circle? {
      var ra := a.body.radius * a.scale;
      var rb := b.body.radius * b.scale;
      assert ra + rb == rb + ra;
      assert Abs(b.position.x - a.position.x) == Abs(a.position.x - b.position.x);
      assert Abs(b.position.y - a.position.y) == Abs(a.position.y - b.position.y);
      assert RadRad(a, b) == RadRad(b, a);
    } else if a.body.Rect? && b.body.Rect? {
      assert Abs(b.position.x - a.position.x) == Abs(a.position.x - b.position.x);
      assert Abs(b.position.y - a.position.y) == Abs(a.position.y - b.position.y);
      var s1 := Scaled(a.body.size, a.scale);
      var s2 := Scaled(b.body.size, b.scale);
      assert s1.x + s2.x == s2.x + s1.x && s1.y + s2.y == s2.y + s1.y;
      assert RectRect(a, b) == RectRect(b, a);
    }
  }

  /** Two closed intervals share a point. */
  ghost predicate Meet(lo1: real, hi1: real, lo2: real, hi2: real) {
    exists x :: Within(x, lo1, hi1) && Within(x, lo2, hi2)
  }

  predicate Within(x: real, lo: real, hi: real) {
    lo <= x <= hi
  }

  /** Closed intervals meet exactly when neither lies wholly beyond the other. */
  lemma MeetBounds(lo1: real, hi1: real, lo2: real, hi2: real)
    requires lo1 <= hi1 && lo2 <= hi2
    ensures Meet(lo1, hi1, lo2, hi2) <==> !(hi2 < lo1) && !(lo2 > hi1)
  {
    if !(hi2 < lo1) && !(lo2 > hi1) {
      var x := if lo1 < lo2 then lo2 else lo1;
      assert Within(x, lo1, hi1) && Within(x, lo2, hi2);
    }
  }

  /** The rectangle test is the overlap of the two closed rectangles, with
      shared edges and corners counting as contact. */
  lemma RectRectIsOverlap(a: Squid, b: Squid)
    requires a.body.Rect? && b.body.Rect?
    requires var s1 := Scaled(a.body.size, a.scale); var s2 := Scaled(b.body.size, b.scale);
      s1.x >= 0.0 && s1.y >= 0.0 && s2.x >= 0.0 && s2.y >= 0.0
    ensures var s1 := Scaled(a.body.size, a.scale); var s2 := Scaled(b.body.size, b.scale);
      RectRect(a, b) <==>
        Meet(a.position.x - s1.x * 0.5, a.position.x + s1.x * 0.5, b.position.x - s2.x * 0.5, b.position.x + s2.x * 0.5)
        && Meet(a.position.y - s1.y * 0.5, a.position.y + s1.y * 0.5, b.position.y - s2.y * 0.5, b.position.y + s2.y * 0.5)
  {
    var s1 := Scaled(a.body.size, a.scale);
    var s2 := Scaled(b.body.size, b.scale);
    MeetBounds(a.position.x - s1.x * 0.5, a.position.x + s1.x * 0.5, b.position.x - s2.x * 0.5, b.position.x + s2.x * 0.5);
    MeetBounds(a.position.y - s1.y * 0.5, a.position.y + s1.y * 0.5, b.position.y - s2.y * 0.5, b.position.y + s2.y * 0.5);
  }

  /** The rectangle-circle test is the overlap of the rectangle with the
      circle's closed bounding square (not with the circle itself). */
  lemma RectRadIsBoundingSquareOverlap(a: Squid, b: Squid)
    requires a.body.Rect? && b.body.Circle?
    requires a.body.size.x * a.scale >= 0.0 && a.body.size.y * a.scale >= 0.0
    requires b.body.radius * b.scale >= 0.0
    ensures var hw := (a.body.size.x * a.scale) * 0.5; var hh := (a.body.size.y * a.scale) * 0.5;
      var rad := b.body.radius * b.scale;
      RectRad(a, b) <==>
        Meet(a.position.x - hw, a.position.x + hw, b.position.x - rad, b.position.x + rad)
        && Meet(a.position.y - hh, a.position.y + hh, b.position.y - rad, b.position.y + rad)
  {
    BoundsOverlapAt(a.position, (a.body.size.x * a.scale) * 0.5, (a.body.size.y * a.scale) * 0.5,
                    b.position, b.body.radius * b.scale);
  }

  lemma BoundsOverlapAt(p1: Vec, hw: real, hh: real, p2: Vec, rad: real)
    requires hw >= 0.0 && hh >= 0.0 && rad >= 0.0
    ensures RectRadAt(p1, hw, hh, p2, rad) <==>
      Meet(p1.x - hw, p1.x + hw, p2.x - rad, p2.x + rad) && Meet(p1.y - hh, p1.y + hh, p2.y - rad, p2.y + rad)
  {
    MeetBounds(p1.x - hw, p1.x + hw, p2.x - rad, p2.x + rad);
    MeetBounds(p1.y - hh, p1.y + hh, p2.y - rad, p2.y + rad);
  }

  /** The circle test in terms of the centre distance `dist`: circles
      collide exactly when strictly closer than the summed scaled radii. */
  lemma RadRadIsStrictDistance(a: Squid, b: Squid, dist: real)
    requires a.body.Circle? && b.body.Circle?
    requires a.body.radius * a.scale + b.body.radius * b.scale >= 0.0
    requires dist >= 0.0
    requires dist * dist == (b.position.x - a.position.x) * (b.position.x - a.position.x)
                            + (b.position.y - a.position.y) * (b.position.y - a.position.y)
    ensures RadRad(a, b) <==> dist < a.body.radius * a.scale + b.body.radius * b.scale
  {
    var rr := a.body.radius * a.scale + b.body.radius * b.scale;
    var dx := b.position.x - a.position.x;
    var dy := b.position.y - a.position.y;
    assert Abs(dx) * Abs(dx) == dx * dx;
    assert Abs(dy) * Abs(dy) == dy * dy;
    SquareMonotone(rr, dist);
  }

  /** Edges that just touch count for rectangles: two unit squares side by
      side collide. */
  lemma TouchingRectsHit(p: Vec)
    ensures CollideSquids(Squid(true, p, None, Undefined, None, 1.0, Rect(Vec(1.0, 1.0, 0.0))),
                          Squid(true, p.(x := p.x + 1.0), None, Undefined, None, 1.0, Rect(Vec(1.0, 1.0, 0.0))))
  {
    var q := p.(x := p.x + 1.0);
    assert Abs(p.x - q.x) == 1.0 && Abs(p.y - q.y) == 0.0;
  }

  /** ... but not for circles: two circles of radius one half side by side
      do not. */
  lemma TouchingCirclesMiss(p: Vec)
    ensures !CollideSquids(Squid(true, p, None, Undefined, None, 1.0, Circle(0.5)),
                           Squid(true, p.(x := p.x + 1.0), None, Undefined, None, 1.0, Circle(0.5)))
  {
    var q := p.(x := p.x + 1.0);
    assert 0.5 * 1.0 + 0.5 * 1.0 == 1.0;
    assert Abs(q.x - p.x) == 1.0 && Abs(q.y - p.y) == 0.0;
  }

  /** The probe `collide_pos_squid` moves onto the point it tests: a
      circle of radius 1 at scale 1. */
  function Probe(p: Vec): Squid {
    Squid(true, Vec(p.x, p.y, 0.0), None, Undefined, None, 1.0, Circle(1.0))
  }

  /** `collide_pos_squid(pos, sq)`: the probe moved to `pos` collides with
      `sq`. A squid without a body is never hit. */
  predicate PointHits(p: Vec, s: Squid) {
    CollideSquids(Probe(p), s)
  }

  /** The point test counts a point up to one unit outside a circle: it
      hits when the point is strictly closer than the scaled radius plus 1. */
  lemma PointHitsCircle(p: Vec, s: Squid, dist: real)
    requires s.body.Circle? && s.body.radius * s.scale >= 0.0
    requires dist >= 0.0
    requires dist * dist == (s.position.x - p.x) * (s.position.x - p.x) + (s.position.y - p.y) * (s.position.y - p.y)
    ensures PointHits(p, s) <==> dist < s.body.radius * s.scale + 1.0
  {
    RadRadIsStrictDistance(Probe(p), s, dist);
  }

  /** For a rectangle, the point test hits when the point lies in the
      scaled box grown by 1 on every side. */
  lemma PointHitsRect(p: Vec, s: Squid)
    requires s.body.Rect? && s.body.size.x * s.scale >= 0.0 && s.body.size.y * s.scale >= 0.0
    ensures var hw := (s.body.size.x * s.scale) * 0.5; var hh := (s.body.size.y * s.scale) * 0.5;
      PointHits(p, s) <==>
        s.position.x - hw - 1.0 <= p.x <= s.position.x + hw + 1.0
        && s.position.y - hh - 1.0 <= p.y <= s.position.y + hh + 1.0
  {
    var hw := (s.body.size.x * s.scale) * 0.5; var hh := (s.body.size.y * s.scale) * 0.5;
    RectRadIsBoundingSquareOverlap(s, Probe(p));
    MeetBounds(s.position.x - hw, s.position.x + hw, p.x - 1.0, p.x + 1.0);
    MeetBounds(s.position.y - hh, s.position.y + hh, p.y - 1.0, p.y + 1.0);
  }

  /** `if (self.body)`: a zero radius is falsy, so such a squid never looks
      for collisions itself (though others may still hit it). */
  predicate BodyTruthy(b: Body) {
    b.Rect? || (b.Circle? && b.radius != 0.0)
  }

  /** The result of the legacy physics handler: the squid as it is after the
      step and the "collide" entries whose handlers it called, in call order;
      or the squid as it was when the step threw. */
  datatype Outcome = Moved(s: Squid, hits: seq<Entry>) | Failed(s: Squid)

  /** The other squids `s` touches among the "collide" listeners, in the
      table's ascending id order, skipping itself. */
  function Hits(id: Id, s: Squid, squids: map<Id, Squid>, collide: Option<Table>): (r: seq<Entry>)
    ensures collide.None? || !BodyTruthy(s.body) ==> r == []
    ensures collide.Some? && BodyTruthy(s.body) ==>
      IdsIncreasing(r)
      && forall e :: e in r <==>
           Holds(collide.value, e) && e.id != id && e.id in squids && CollideSquids(s, squids[e.id])
  {
    if collide.None? || !BodyTruthy(s.body) then []
    else
      var all := Values(collide.value);
      ValuesSpec(collide.value);
      var p := j => j != id && j in squids && CollideSquids(s, squids[j]);
      SelectKeepsIdsIncreasing(all, p);
      Select(all, p)
  }

  /** Legacy `default_physics` for the squid `id`: nothing when inactive;
      with a velocity, the position moves by it and then, when there is no
      numeric limit, gravity is added (an undefined gravity adds nothing, as
      `add()` defaults to zero). A numeric limit throws after the move, since
      the legacy vector has no `length()`, and so does a null gravity, whose
      components `add` reads. Then a squid with a body calls the "collide"
      handler of every other squid it touches. */
  function LegacyPhysics(id: Id, squids: map<Id, Squid>, collide: Option<Table>): (r: Outcome)
    requires id in squids
    ensures var s := squids[id];
      !s.active ==> r == Moved(s, [])
    ensures var s := squids[id];
      s.active && s.velocity.Some? && (s.velocityLimit.Some? || s.gravity.Null?) ==>
        r == Failed(s.(position := Plus(s.position, s.velocity.value)))
    ensures var s := squids[id];
      s.active && (s.velocity.None? || (s.velocityLimit.None? && !s.gravity.Null?)) ==>
        r.Moved?
        && (s.velocity.None? ==> r.s == s)
        && (s.velocity.Some? ==>
              r.s == s.(position := Plus(s.position, s.velocity.value),
                        velocity := Some(Plus(s.velocity.value, if s.gravity.Value? then s.gravity.v else Origin))))
        && r.hits == Hits(id, r.s, squids, collide)
  {
    var s := squids[id];
    if !s.active then Moved(s, [])
    else if s.velocity.None? then Moved(s, Hits(id, s, squids, collide))
    else
      var v := s.velocity.value;
      var moved := s.(position := Plus(s.position, v));
      if s.velocityLimit.Some? || s.gravity.Null? then Failed(moved)
      else
        var g := if s.gravity.Value? then s.gravity.v else Origin;
        var after := moved.(velocity := Some(Plus(v, g)));
        Moved(after, Hits(id, after, squids, collide))
  }

  /** A squid that does not move under `default_physics`: no velocity, or
      the legacy default of a zero velocity, no limit and zero (or
      undefined) gravity. */
  predicate AtRest(s: Squid) {
    s.velocity.None?
    || (s.velocity == Some(Origin) && s.velocityLimit.None? && (s.gravity.Undefined? || s.gravity == Value(Origin)))
  }

  /** A squid at rest stays where it is and as it is. */
  lemma AtRestStays(id: Id, squids: map<Id, Squid>, collide: Option<Table>)
    requires id in squids && squids[id].active && AtRest(squids[id])
    ensures LegacyPhysics(id, squids, collide) == Moved(squids[id], Hits(id, squids[id], squids, collide))
  {
    var s := squids[id];
    if s.velocity.Some? {
      assert Plus(s.position, Origin) == s.position;
      assert Plus(Origin, Origin) == Origin;
    }
  }

  /** At rest, contact is mutual: if `a`'s step calls `b`'s collide handler,
      then `b`'s step calls `a`'s, provided `b` looks for collisions too. */
  lemma ContactIsMutual(a: Id, b: Id, squids: map<Id, Squid>, collide: Table)
    requires a in squids && b in squids && a in collide && b in collide
    requires squids[a].active && squids[b].active
    requires AtRest(squids[a]) && AtRest(squids[b])
    requires BodyTruthy(squids[b].body)
    requires Entry(b, collide[b]) in LegacyPhysics(a, squids, Some(collide)).hits
    ensures Entry(a, collide[a]) in LegacyPhysics(b, squids, Some(collide)).hits
  {
    AtRestStays(a, squids, Some(collide));
    AtRestStays(b, squids, Some(collide));
    CollideSymmetric(squids[a], squids[b]);
  }

  /** The legacy constructor's defaults (velocity and gravity `vec(0, 0)`,
      no limit) are at rest. */
  lemma DefaultSquidAtRest(p: Vec, scale: real, body: Body)
    ensures AtRest(Squid(true, p, Some(Vec(0.0, 0.0, 0.0)), Value(Vec(0.0, 0.0, 0.0)), None, scale, body))
  {
  }
}

=== FILE: debug.dfy ===
/** The debug overlay: a flag and the message rows drawn over the display
    while it is set.

    The typed engine's `debug(row, content)` dispatches on the type of
    `row`; the legacy `debug(...args)` dispatches on the argument count and
    coerces its index with `args[0] | 0`. A row is `None` where the array
    holds `undefined` or has a hole: `for ... of` yields `undefined` for both. */
module Debug {
  import opened Basics

  type Rows = seq<Option<string>>

  datatype Overlay = Overlay(flag: bool, rows: Rows)

  /** The overlay at start-up. */
  const Initial := Overlay(false, [])

  /** The largest array index: `2^32 - 2`. */
  const MaxIndex: int := 0x1_0000_0000 - 2

  /** Whether assigning to `rows[n]` sets an element; any other number
      names an ordinary property, which neither the length nor the
      elements see. */
  predicate IsIndex(n: int) {
    0 <= n <= MaxIndex
  }

  /** `rows[n] = content`: an index past the end grows the array, leaving
      holes in between. */
  function SetRow(rows: Rows, n: int, content: Option<string>): (r: Rows)
    ensures !IsIndex(n) ==> r == rows
    ensures IsIndex(n) ==>
      |r| == (if n < |rows| then |rows| else n + 1)
      && r[n] == content
      && forall i :: 0 <= i < |r| && i != n ==> r[i] == (if i < |rows| then rows[i] else None)
  {
    if !IsIndex(n) then rows
    else if n < |rows| then rows[n := content]
    else rows + seq(n - |rows|, _ => None) + [content]
  }

  /** The argument of the typed `debug`. */
  datatype TypedArg =
    | Flag(b: bool)                              // debug(true)
    | Row(n: int, content: Option<string>)       // debug(n, msg)
    | AllRows(rows: Rows)                        // debug([msg, ...])
    | NoArg                                      // debug()

  /** The typed `debug`: a boolean sets the flag, a number sets one row, an
      array replaces the rows; it returns the flag as it is afterwards. */
  function TypedDebug(o: Overlay, a: TypedArg): (r: (Overlay, bool))
    ensures r.1 == r.0.flag
    ensures !a.Flag? ==> r.0.flag == o.flag
    ensures a.Flag? ==> r.0.flag == a.b
    ensures a.Flag? || a.NoArg? ==> r.0.rows == o.rows
    ensures a.AllRows? ==> r.0.rows == a.rows
    ensures a.Row? ==> r.0.rows == SetRow(o.rows, a.n, a.content)
  {
    match a
    case Flag(b) => (o.(flag := b), b)
    case Row(n, content) => (o.(rows := SetRow(o.rows, n, content)), o.flag)
    case AllRows(rows) => (o.(rows := rows), o.flag)
    case NoArg => (o, o.flag)
  }

  /** A JavaScript value passed to the legacy `debug`. */
  datatype Value = Bool(b: bool) | Num(x: real) | Str(s: string) | Arr(items: Rows) | Undefined

  /** `!!v` (NaN is not modelled). */
  predicate Truthy(v: Value) {
    match v
    case Bool(b) => b
    case Num(x) => x != 0.0
    case Str(s) => s != ""
    case Arr(_) => true
    case Undefined => false
  }

  /** Rounding toward zero, as ToInt32 does before wrapping. */
  function Trunc(x: real): int {
    if x >= 0.0 then x.Floor else -((-x).Floor)
  }

  /** `x | 0` on a number: truncate, then wrap into the signed 32-bit range. */
  function ToInt32(x: real): (r: int)
    ensures -0x8000_0000 <= r < 0x8000_0000
    ensures (r - Trunc(x)) % 0x1_0000_0000 == 0
  {
    var m := Trunc(x) % 0x1_0000_0000;
    if m >= 0x8000_0000 then m - 0x1_0000_0000 else m
  }

  /** A whole number already in the signed 32-bit range is unchanged by `| 0`. */
  lemma ToInt32OfInt32(n: int)
    requires -0x8000_0000 <= n < 0x8000_0000
    ensures ToInt32(n as real) == n
  {
    assert Trunc(n as real) == n;
  }

  /** The calls of the legacy `debug`, by argument count (the numeric first
      argument of the two-argument form). */
  datatype LegacyCall = Query | One(v: Value) | Two(index: real, msg: Option<string>)

  /** The legacy `debug`: two arguments set row `args[0] | 0`; one array
      argument replaces the rows, any other single argument sets the flag to
      its truthiness; it returns the flag as it is afterwards. */
  function LegacyDebug(o: Overlay, call: LegacyCall): (r: (Overlay, bool))
    ensures r.1 == r.0.flag
    ensures call.Two? ==> r.0 == o.(rows := SetRow(o.rows, ToInt32(call.index), call.msg))
    ensures call.One? && call.v.Arr? ==> r.0 == o.(rows := call.v.items)
    ensures call.One? && !call.v.Arr? ==> r.0 == o.(flag := Truthy(call.v))
    ensures call.Query? ==> r.0 == o
  {
    match call
    case Query => (o, o.flag)
    case One(v) =>
      if v.Arr? then (o.(rows := v.items), o.flag) else (o.(flag := Truthy(v)), Truthy(v))
    case Two(index, msg) => (o.(rows := SetRow(o.rows, ToInt32(index), msg)), o.flag)
  }

  /** The two engines agree on the calls both document: `debug()`,
      `debug(flag)`, `debug([msg, ...])` and `debug(n, msg)` for a row
      number below `2^31`. */
  lemma LegacyAgreesWithTyped(o: Overlay, b: bool, rows: Rows, n: nat, msg: Option<string>)
    requires n < 0x8000_0000
    ensures LegacyDebug(o, Query) == TypedDebug(o, NoArg)
    ensures LegacyDebug(o, One(Bool(b))) == TypedDebug(o, Flag(b))
    ensures LegacyDebug(o, One(Arr(rows))) == TypedDebug(o, AllRows(rows))
    ensures LegacyDebug(o, Two(n as real, msg)) == TypedDebug(o, Row(n, msg))
  {
    ToInt32OfInt32(n);
  }

  /** Where they part: the legacy index is truncated and wrapped, so
      `debug(2.5, m)` sets row 2 and `debug(2^32 + 5, m)` sets row 5, while
      the typed `debug(2^32 + 5, m)` sets a property that is never drawn;
      and the legacy `debug(undefined)` clears the flag. */
  lemma LegacyIndexWraps(o: Overlay, msg: Option<string>)
    ensures LegacyDebug(o, Two(2.5, msg)) == LegacyDebug(o, Two(2.0, msg))
    ensures LegacyDebug(o, Two(0x1_0000_0005 as real, msg)) == TypedDebug(o, Row(5, msg))
    ensures TypedDebug(o, Row(0x1_0000_0005, msg)).0 == o
    ensures LegacyDebug(o, One(Undefined)) == (o.(flag := false), false)
  {
    ToInt32OfInt32(2);
    ToInt32OfInt32(5);
    assert Trunc(2.5) == 2;
  }

  /** A negative index sets no row in either engine. */
  lemma NegativeRowIgnored(o: Overlay, n: int, msg: Option<string>)
    requires -0x8000_0000 <= n < 0
    ensures LegacyDebug(o, Two(n as real, msg)).0 == o
    ensures TypedDebug(o, Row(n, msg)).0 == o
  {
    ToInt32OfInt32(n);
  }

  /** Setting a row and reading it back gives what was set; setting it
      again with the same text changes nothing. */
  lemma SetRowTwice(rows: Rows, n: int, content: Option<string>)
    ensures SetRow(SetRow(rows, n, content), n, content) == SetRow(rows, n, content)
  {
  }

  /** The keydown handler: ctrl+` toggles the flag, any other key leaves it. */
  function KeyDown(o: Overlay, key: string, ctrl: bool): (r: Overlay)
    ensures r.rows == o.rows
    ensures r.flag != o.flag <==> key == "`" && ctrl
  {
    if key == "`" && ctrl then o.(flag := !o.flag) else o
  }

  /** Toggling twice restores the flag. */
  lemma ToggleTwice(o: Overlay, key: string, ctrl: bool)
    ensures KeyDown(KeyDown(o, key, ctrl), key, ctrl) == o
  {
  }
}

=== FILE: draworder.dfy ===
/** Listener entries and the order in which the bus walks them.

    A listener table maps an entity id to the handler it registered; the bus
    walks an ordinary table in ascending id order, and the draw listeners in
    the order `sort_for_draw` gives them: `Object.values` of the draw table
    (ascending id) sorted by `a.t.priority - b.t.priority` with the stable
    `Array.prototype.sort`. Together that is ascending (priority, id). */
module DrawOrder {
  import opened Ordering

  type Id = nat

  /** A handler function, as an opaque tag. */
  datatype Handler =
    | Nop                 // the legacy `listen` default `()=>{}`
    | DefaultPhysics
    | DefaultTick
    | DefaultAnimate
    | DefaultDraw
    | Custom(tag: nat)    // a handler supplied by game code

  /** The wrapper `{t, f}` stored in a table: `t` is the entity with this id. */
  datatype Entry = Entry(id: Id, f: Handler)

  /** One event type's listeners, keyed by entity id. */
  type Table = map<Id, Handler>

  /** An entity's draw priority, read from the priorities of the live entities. */
  function PriorityOf(pri: map<Id, int>, id: Id): int {
    if id in pri then pri[id] else 0
  }

  /** `a` is drawn before `b`: lower priority first, then lower id. */
  predicate Before(a: Entry, b: Entry, pri: map<Id, int>) {
    PriorityOf(pri, a.id) < PriorityOf(pri, b.id)
    || (PriorityOf(pri, a.id) == PriorityOf(pri, b.id) && a.id < b.id)
  }

  predicate InDrawOrder(s: seq<Entry>, pri: map<Id, int>) {
    forall i, j :: 0 <= i < j < |s| ==> Before(s[i], s[j], pri)
  }

  predicate IdsIncreasing(s: seq<Entry>) {
    forall i, j :: 0 <= i < j < |s| ==> s[i].id < s[j].id
  }

  /** The entries a table holds. */
  predicate Holds(t: Table, e: Entry) {
    e.id in t && t[e.id] == e.f
  }

  /** `Object.values(table)`: every entry of the table, in ascending id
      order. The properties are stated by `ValuesSpec`; keeping them out of
      the signature keeps every context that merely mentions the array cheap. */
  function Values(t: Table): seq<Entry>
    decreases t.Keys
  {
    if t == map[] then []
    else
      var m := Least(t.Keys);
      assert (t - {m}).Keys < t.Keys;
      [Entry(m, t[m])] + Values(t - {m})
  }

  lemma {:induction false} ValuesSpec(t: Table)
    ensures IdsIncreasing(Values(t))
    ensures forall e :: e in Values(t) <==> Holds(t, e)
    ensures |Values(t)| == |t|
    decreases t.Keys
  {
    if t != map[] {
      var m := Least(t.Keys);
      var rest := t - {m};
      assert rest.Keys < t.Keys;
      ValuesSpec(rest);
      assert rest.Keys == t.Keys - {m};
      var r := Values(t);
      assert r == [Entry(m, t[m])] + Values(rest);
      forall e
        ensures e in r <==> Holds(t, e)
      {
        if e.id != m {
          assert Holds(t, e) <==> Holds(rest, e);
        }
      }
      forall i | 1 <= i < |r|
        ensures m < r[i].id
      {
        assert r[i] in Values(rest);
        assert r[i].id in t.Keys && r[i].id != m;
      }
    }
  }

  /** Inserts `e` behind every entry whose priority is not greater than its
      own: one step of a stable sort on priority. */
  function InsertStable(s: seq<Entry>, e: Entry, pri: map<Id, int>): seq<Entry>
    decreases |s|
  {
    if |s| == 0 then [e]
    else if PriorityOf(pri, s[|s| - 1].id) <= PriorityOf(pri, e.id) then s + [e]
    else InsertStable(s[..|s| - 1], e, pri) + [s[|s| - 1]]
  }

  /** Insertion adds exactly `e`, and keeps the draw order when `e` has the
      largest id so far. */
  lemma {:induction false} InsertStableSpec(s: seq<Entry>, e: Entry, pri: map<Id, int>)
    ensures |InsertStable(s, e, pri)| == |s| + 1
    ensures forall x :: x in InsertStable(s, e, pri) <==> x in s || x == e
    ensures InDrawOrder(s, pri) && (forall x :: x in s ==> x.id < e.id) ==> InDrawOrder(InsertStable(s, e, pri), pri)
    decreases |s|
  {
    if |s| > 0 {
      var last := s[|s| - 1];
      var init := s[..|s| - 1];
      assert s == init + [last];
      if PriorityOf(pri, last.id) > PriorityOf(pri, e.id) {
        InsertStableSpec(init, e, pri);
        assert InDrawOrder(s, pri) ==> forall x :: x in init ==> Before(x, last, pri);
      }
    }
  }

  /** `Array.prototype.sort` with the comparator `a.priority - b.priority`:
      a stable sort on priority alone, as repeated stable insertion. */
  function StableSort(s: seq<Entry>, pri: map<Id, int>): seq<Entry>
    decreases |s|
  {
    if |s| == 0 then []
    else InsertStable(StableSort(s[..|s| - 1], pri), s[|s| - 1], pri)
  }

  /** Sorting keeps the entries, and a stable sort on priority of a list in
      ascending id order is the (priority, id) order. */
  lemma {:induction false} StableSortSpec(s: seq<Entry>, pri: map<Id, int>)
    ensures |StableSort(s, pri)| == |s|
    ensures forall x :: x in StableSort(s, pri) <==> x in s
    ensures IdsIncreasing(s) ==> InDrawOrder(StableSort(s, pri), pri)
    decreases |s|
  {
    if |s| > 0 {
      var init := s[..|s| - 1];
      var last := s[|s| - 1];
      assert s == init + [last];
      StableSortSpec(init, pri);
      InsertStableSpec(StableSort(init, pri), last, pri);
      assert IdsIncreasing(s) ==> forall x :: x in init ==> x.id < last.id;
    }
  }

  /** `sort_for_draw`: the draw table's entries, ascending by (priority, id). */
  function SortForDraw(draw: Table, pri: map<Id, int>): seq<Entry> {
    StableSort(Values(draw), pri)
  }

  lemma SortForDrawSpec(draw: Table, pri: map<Id, int>)
    ensures InDrawOrder(SortForDraw(draw, pri), pri)
    ensures forall e :: e in SortForDraw(draw, pri) <==> Holds(draw, e)
    ensures |SortForDraw(draw, pri)| == |draw|
  {
    ValuesSpec(draw);
    StableSortSpec(Values(draw), pri);
  }

  /** An entity appears at most once in a sequence in draw order. */
  lemma DrawOrderDistinct(s: seq<Entry>, pri: map<Id, int>, i: int, j: int)
    requires InDrawOrder(s, pri)
    requires 0 <= i < |s| && 0 <= j < |s| && s[i].id == s[j].id
    ensures i == j
  {
  }

  /** The head of a list in draw order is drawn no later than any member. */
  lemma FirstInDrawOrder(s: seq<Entry>, pri: map<Id, int>, x: Entry)
    requires InDrawOrder(s, pri) && x in s
    ensures x == s[0] || Before(s[0], x, pri)
  {
    var k :| 0 <= k < |s| && s[k] == x;
    if k > 0 {
      assert Before(s[0], s[k], pri);
    }
  }

  /** The draw order is determined by its members: any sequence in
      (priority, id) order holding the same entries is the same sequence. */
  lemma {:induction false} DrawOrderUnique(a: seq<Entry>, b: seq<Entry>, pri: map<Id, int>)
    requires InDrawOrder(a, pri) && InDrawOrder(b, pri)
    requires forall e :: e in a <==> e in b
    ensures a == b
    decreases |a|
  {
    SameMembersSameEmptiness(a, b);
    if a != [] {
      assert a[0] in b;
      assert b[0] in a;
      FirstInDrawOrder(b, pri, a[0]);
      FirstInDrawOrder(a, pri, b[0]);
      forall e
        ensures e in a[1..] <==> e in b[1..]
      {
        if e in a[1..] {
          var i :| 1 <= i < |a| && a[i] == e;
          assert Before(a[0], e, pri);
          assert e in b;
        }
        if e in b[1..] {
          var i :| 1 <= i < |b| && b[i] == e;
          assert Before(b[0], e, pri);
          assert e in a;
        }
      }
      DrawOrderUnique(a[1..], b[1..], pri);
      assert a == [a[0]] + a[1..];
      assert b == [b[0]] + b[1..];
    }
  }

  /** `sort_for_draw` yields the unique (priority, id) ordering of the draw table. */
  lemma SortForDrawIsTheDrawOrder(draw: Table, pri: map<Id, int>, s: seq<Entry>)
    requires InDrawOrder(s, pri)
    requires forall e :: e in s <==> Holds(draw, e)
    ensures s == SortForDraw(draw, pri)
  {
    SortForDrawSpec(draw, pri);
    DrawOrderUnique(s, SortForDraw(draw, pri), pri);
  }

  /** The entries of `s` whose id satisfies `p`, in their original order:
      `Array.prototype.filter` on listener entries. */
  function Select(s: seq<Entry>, p: Id -> bool): (r: seq<Entry>)
    ensures forall e :: e in r <==> e in s && p(e.id)
    ensures |r| <= |s|
    decreases |s|
  {
    if s == [] then []
    else
      assert s == [s[0]] + s[1..];
      if p(s[0].id) then [s[0]] + Select(s[1..], p) else Select(s[1..], p)
  }

  /** Filtering keeps the draw order. */
  lemma {:induction false} SelectKeepsDrawOrder(s: seq<Entry>, p: Id -> bool, pri: map<Id, int>)
    requires InDrawOrder(s, pri)
    ensures InDrawOrder(Select(s, p), pri)
    decreases |s|
  {
    if s != [] {
      SelectKeepsDrawOrder(s[1..], p, pri);
      var rest := Select(s[1..], p);
      forall e | e in rest
        ensures Before(s[0], e, pri)
      {
        var k :| 0 <= k < |s[1..]| && s[1..][k] == e;
        assert s[k + 1] == e;
      }
    }
  }

  /** Filtering keeps ascending id order. */
  lemma {:induction false} SelectKeepsIdsIncreasing(s: seq<Entry>, p: Id -> bool)
    requires IdsIncreasing(s)
    ensures IdsIncreasing(Select(s, p))
    decreases |s|
  {
    if s != [] {
      SelectKeepsIdsIncreasing(s[1..], p);
      var rest := Select(s[1..], p);
      forall e | e in rest
        ensures s[0].id < e.id
      {
        var k :| 0 <= k < |s[1..]| && s[1..][k] == e;
        assert s[k + 1] == e;
      }
    }
  }

  /** Filtering twice by the same test is filtering once. */
  lemma {:induction false} SelectTwice(s: seq<Entry>, p: Id -> bool)
    ensures Select(Select(s, p), p) == Select(s, p)
    decreases |s|
  {
    if s != [] {
      SelectTwice(s[1..], p);
      if p(s[0].id) {
        var once := Select(s, p);
        assert once == [s[0]] + Select(s[1..], p);
        assert once[1..] == Select(s[1..], p);
      }
    }
  }
}

=== FILE: mono.dfy ===
/** The monologue ticker at the foot of the screen: it shows the lines of
    each story in turn, one every `linePause` game ticks, then a blank line
    for `endPause` ticks, and "The End" after the last story.

    The handler keeps `currentStory = stories[0]` from load time, so the line
    count and both pauses of the first story govern every story; the text
    itself is read from the current story. `Mono*` members model that;
    `Fixed*` members read the current story throughout. */
module Mono {
  import opened Basics

  datatype Story = Story(linePause: nat, lines: seq<string>, endPause: nat)

  /** The stories the game ships. */
  const Stories: seq<Story> := [
    Story(400, ["Leaving home is hard. The world feels too real out there.",
                "So I hide and wait."], 1000),
    Story(300, ["Maybe I should get a dog.",
                "Or a job. Some people like their jobs right?",
                "Maybe I should get a job and a dog."], 1000)
  ]

  lemma ShippedWellFormed()
    ensures WellFormed(Stories)
  {
    forall s | s in Stories
      ensures s.linePause > 0 && s.endPause > 0 && |s.lines| > 0
    {
      assert s == Stories[0] || s == Stories[1];
    }
  }

  /** The line the ticker shows: `None` where the array read is `undefined`. */
  datatype Ticker = Ticker(story: nat, line: nat, over: bool, shown: Option<string>)

  /** What the shipped stories need: pauses are positive (`tick % 0` is NaN,
      so a zero pause would never fire) and every story has a line. */
  predicate WellFormed(stories: seq<Story>) {
    forall s :: s in stories ==> s.linePause > 0 && s.endPause > 0 && |s.lines| > 0
  }

  /** `stories[i].lines[j]`, `undefined` out of range. */
  function LineOf(stories: seq<Story>, i: nat, j: nat): Option<string> {
    if i < |stories| && j < |stories[i].lines| then Some(stories[i].lines[j]) else None
  }

  /** `loadMono`: the first line of the first story. */
  function MonoStart(stories: seq<Story>): (t: Ticker)
    requires |stories| > 0
    ensures t.shown == LineOf(stories, 0, 0) && !t.over
  {
    Ticker(0, 0, false, LineOf(stories, 0, 0))
  }

  /** One firing of the ticker (a tick on which the pause has elapsed), with
      `pacing` the story whose line count decides when a story is over: the
      first story as written, the current one as intended. */
  function Advance(stories: seq<Story>, t: Ticker, pacing: Story): (r: Ticker)
    ensures t.story >= |stories| ==> r == t
    ensures t.story < |stories| && t.over ==>
      r.story == t.story + 1 && r.line == 0 && !r.over
      && r.shown == (if r.story >= |stories| then Some("The End") else LineOf(stories, r.story, 0))
    ensures t.story < |stories| && !t.over && t.line + 1 >= |pacing.lines| ==>
      r == t.(line := t.line + 1, over := true, shown := Some(""))
    ensures t.story < |stories| && !t.over && t.line + 1 < |pacing.lines| ==>
      r == t.(line := t.line + 1, shown := LineOf(stories, t.story, t.line + 1))
  {
    if t.story >= |stories| then t
    else if t.over then
      var next := t.story + 1;
      if next >= |stories| then Ticker(next, 0, false, Some("The End"))
      else Ticker(next, 0, false, LineOf(stories, next, 0))
    else if t.line + 1 >= |pacing.lines| then t.(line := t.line + 1, over := true, shown := Some(""))
    else t.(line := t.line + 1, shown := LineOf(stories, t.story, t.line + 1))
  }

  /** Whether game tick `tick` fires the ticker, with the pauses of `pacing`. */
  predicate Fires(t: Ticker, tick: nat, pacing: Story)
    requires pacing.linePause > 0 && pacing.endPause > 0
  {
    tick % (if t.over then pacing.endPause else pacing.linePause) == 0
  }

  /** The "tick" handler as written: paced by the first story. */
  function MonoTick(stories: seq<Story>, t: Ticker, tick: nat): (r: Ticker)
    requires |stories| > 0 && WellFormed(stories)
    ensures t.story < |stories| && Fires(t, tick, stories[0]) ==> r == Advance(stories, t, stories[0])
    ensures t.story >= |stories| || !Fires(t, tick, stories[0]) ==> r == t
  {
    assert stories[0] in stories;
    if t.story < |stories| && Fires(t, tick, stories[0]) then Advance(stories, t, stories[0]) else t
  }

  /** The "tick" handler as intended: paced by the current story. */
  function FixedTick(stories: seq<Story>, t: Ticker, tick: nat): (r: Ticker)
    requires WellFormed(stories)
    ensures t.story < |stories| && Fires(t, tick, stories[t.story]) ==> r == Advance(stories, t, stories[t.story])
    ensures t.story >= |stories| || !Fires(t, tick, stories[t.story]) ==> r == t
  {
    if t.story >= |stories| then t
    else
      assert stories[t.story] in stories;
      if Fires(t, tick, stories[t.story]) then Advance(stories, t, stories[t.story]) else t
  }

  /** What the ticker may show: the blank pause, "The End", or a line of
      the story it is in. */
  predicate ShowsStoryLine(stories: seq<Story>, t: Ticker) {
    t.shown == Some("") || t.shown == Some("The End")
    || (t.story < |stories| && t.shown.Some? && t.shown.value in stories[t.story].lines)
  }

  /** As written, a tick never moves back to an earlier story, and (when no
      story is shorter than the first, whose line count bounds them all) it
      only ever shows a line of the current story, the blank or "The End". */
  lemma MonoTickKeepsStoryLine(stories: seq<Story>, t: Ticker, tick: nat)
    requires |stories| > 0 && WellFormed(stories)
    requires forall i :: 0 <= i < |stories| ==> |stories[0].lines| <= |stories[i].lines|
    requires ShowsStoryLine(stories, t)
    ensures MonoTick(stories, t, tick).story >= t.story
    ensures ShowsStoryLine(stories, MonoTick(stories, t, tick))
  {
    var r := MonoTick(stories, t, tick);
    if r != t && t.over && r.story < |stories| {
      assert stories[r.story] in stories;
      assert r.shown.value == stories[r.story].lines[0];
    }
  }

  /** The ticker as written stays within the first two lines of each story
      of the shipped game. */
  predicate ShowsFirstTwo(t: Ticker) {
    t.story <= 2 && (t.story < 2 && !t.over ==> t.line < 2)
    && (t.shown.Some? ==> t.shown.value != Stories[1].lines[2])
  }

  /** Whatever the ticks, the handler as written never shows the third
      line of the second story. */
  lemma {:induction false} ThirdLineNeverShown(t: Ticker, ticks: seq<nat>)
    requires ShowsFirstTwo(t)
    ensures ShowsFirstTwo(MonoRun(t, ticks))
    decreases |ticks|
  {
    if ticks != [] {
      ShippedWellFormed();
      var u := MonoTick(Stories, t, ticks[0]);
      assert ShowsFirstTwo(u);
      ThirdLineNeverShown(u, ticks[1..]);
    }
  }

  /** Ticks in a row of the shipped game, as written. */
  function MonoRun(t: Ticker, ticks: seq<nat>): Ticker
    decreases |ticks|
  {
    if ticks == [] then t
    else
      ShippedWellFormed();
      MonoRun(MonoTick(Stories, t, ticks[0]), ticks[1..])
  }

  /** The shipped game starts in a state that shows only the first two lines. */
  lemma StartShowsFirstTwo()
    ensures ShowsFirstTwo(MonoStart(Stories))
  {
  }

  /** `k` firings of the corrected ticker. */
  function FixedAdvances(stories: seq<Story>, t: Ticker, k: nat): Ticker
    decreases k
  {
    if k == 0 then t
    else if t.story < |stories| then FixedAdvances(stories, Advance(stories, t, stories[t.story]), k - 1)
    else t
  }

  lemma {:induction false} FixedAdvancesSplit(stories: seq<Story>, t: Ticker, j: nat, k: nat)
    ensures FixedAdvances(stories, t, j + k) == FixedAdvances(stories, FixedAdvances(stories, t, j), k)
    decreases j
  {
    if j > 0 && t.story < |stories| {
      FixedAdvancesSplit(stories, Advance(stories, t, stories[t.story]), j - 1, k);
    } else if j > 0 {
      FixedAdvancesStay(stories, t, k);
      FixedAdvancesStay(stories, t, j + k);
    }
  }

  /** Past the last story the ticker no longer changes. */
  lemma {:induction false} FixedAdvancesStay(stories: seq<Story>, t: Ticker, k: nat)
    requires t.story >= |stories|
    ensures FixedAdvances(stories, t, k) == t
    decreases k
  {
  }

  /** Within a story, firing `j` times from its first line shows its line `j`. */
  lemma {:induction false} WalkStory(stories: seq<Story>, t: Ticker, j: nat)
    requires t.story < |stories| && !t.over && t.line == 0
    requires j < |stories[t.story].lines|
    ensures FixedAdvances(stories, t, j) == t.(line := j, shown := if j == 0 then t.shown else LineOf(stories, t.story, j))
    decreases j
  {
    if j > 0 {
      WalkStory(stories, t, j - 1);
      FixedAdvancesSplit(stories, t, j - 1, 1);
    }
  }

  /** Where story `i` begins: every earlier story takes one firing per line
      and one more to leave its blank pause. */
  function Offset(stories: seq<Story>, i: nat): nat
    requires i <= |stories|
  {
    if i == 0 then 0 else Offset(stories, i - 1) + |stories[i - 1].lines| + 1
  }

  /** After `Offset(i)` firings the corrected ticker shows the first line
      of story `i`. */
  lemma {:induction false} ReachStory(stories: seq<Story>, i: nat)
    requires |stories| > 0 && WellFormed(stories) && i < |stories|
    ensures FixedAdvances(stories, MonoStart(stories), Offset(stories, i)) == Ticker(i, 0, false, LineOf(stories, i, 0))
    decreases i
  {
    if i > 0 {
      var s := MonoStart(stories);
      ReachStory(stories, i - 1);
      var t := Ticker(i - 1, 0, false, LineOf(stories, i - 1, 0));
      var n := |stories[i - 1].lines|;
      assert stories[i - 1] in stories;
      WalkStory(stories, t, n - 1);
      FixedAdvancesSplit(stories, t, n - 1, 2);
      FixedAdvancesSplit(stories, s, Offset(stories, i - 1), n + 1);
    }
  }

  /** The corrected ticker shows every line of every story: line `j` of
      story `i` after `Offset(i) + j` firings. */
  lemma FixedShowsEveryLine(stories: seq<Story>, i: nat, j: nat)
    requires |stories| > 0 && WellFormed(stories) && i < |stories| && j < |stories[i].lines|
    ensures FixedAdvances(stories, MonoStart(stories), Offset(stories, i) + j).shown == Some(stories[i].lines[j])
  {
    ReachStory(stories, i);
    WalkStory(stories, Ticker(i, 0, false, LineOf(stories, i, 0)), j);
    FixedAdvancesSplit(stories, MonoStart(stories), Offset(stories, i), j);
  }

  /** In the shipped game the corrected ticker reaches the line the
      handler as written never shows. */
  lemma FixedShowsThirdLine()
    ensures FixedAdvances(Stories, MonoStart(Stories), Offset(Stories, 1) + 2).shown == Some(Stories[1].lines[2])
  {
    ShippedWellFormed();
    FixedShowsEveryLine(Stories, 1, 2);
  }
}

=== FILE: ordering.dfy ===
/** Enumeration order of integer-like object keys.

    JavaScript's `Object.values` lists the properties whose names are array
    indices ("1", "2", ...) in ascending numeric order, whatever the order of
    insertion. Entity ids are such names, so every listener table of the engine
    is walked in ascending id order; `Ascending` is that order. */
module Ordering {

  predicate StrictlyIncreasing(s: seq<nat>) {
    forall i, j :: 0 <= i < j < |s| ==> s[i] < s[j]
  }

  /** A set holding `x` has a least element, found by descending from `x`. */
  lemma {:induction false} LeastBelow(s: set<nat>, x: nat)
    requires x in s
    ensures exists m :: m in s && forall k :: k in s ==> m <= k
    decreases x
  {
    if !forall k :: k in s ==> x <= k {
      var y :| y in s && y < x;
      LeastBelow(s, y);
    }
  }

  /** Every non-empty set of naturals has a least element. */
  lemma LeastExists(s: set<nat>)
    requires s != {}
    ensures exists m :: m in s && forall k :: k in s ==> m <= k
  {
    var x :| x in s;
    LeastBelow(s, x);
  }

  /** The least element of a non-empty set of naturals. */
  function Least(s: set<nat>): (m: nat)
    requires s != {}
    ensures m in s
    ensures forall k :: k in s ==> m <= k
  {
    LeastExists(s);
    var m :| m in s && forall k :: k in s ==> m <= k; m
  }

  /** The elements of `s` in ascending order (the order `Object.values` uses). */
  function Ascending(s: set<nat>): (r: seq<nat>)
    ensures StrictlyIncreasing(r)
    ensures forall k :: k in r <==> k in s
    ensures |r| == |s|
    decreases |s|
  {
    if s == {} then []
    else
      var m := Least(s);
      var rest := Ascending(s - {m});
      assert forall i :: 0 <= i < |rest| ==> m < rest[i];
      [m] + rest
  }

  /** Two strictly increasing sequences holding the same elements are equal:
      the ascending enumeration of a key set is unique. */
  lemma {:induction false} IncreasingUnique(a: seq<nat>, b: seq<nat>)
    requires StrictlyIncreasing(a) && StrictlyIncreasing(b)
    requires forall k :: k in a <==> k in b
    ensures a == b
    decreases |a|
  {
    SameMembersSameEmptiness(a, b);
    if a != [] {
      assert a[0] in b;
      assert b[0] in a;
      assert a[0] == b[0] by {
        var i :| 0 <= i < |b| && b[i] == a[0];
        var j :| 0 <= j < |a| && a[j] == b[0];
        assert b[0] <= b[i] && a[0] <= a[j];
      }
      forall k
        ensures k in a[1..] <==> k in b[1..]
      {
        if k in a[1..] {
          var i :| 1 <= i < |a| && a[i] == k;
          assert k != a[0];
          assert k in b;
        }
        if k in b[1..] {
          var i :| 1 <= i < |b| && b[i] == k;
          assert k != b[0];
          assert k in a;
        }
      }
      IncreasingUnique(a[1..], b[1..]);
      assert a == [a[0]] + a[1..];
      assert b == [b[0]] + b[1..];
    }
  }

  /** Sequences with the same members are empty together. */
  lemma SameMembersSameEmptiness<T>(a: seq<T>, b: seq<T>)
    requires forall k :: k in a <==> k in b
    ensures a == [] <==> b == []
  {
    if a != [] {
      assert a[0] in a;
    }
    if b != [] {
      assert b[0] in b;
    }
  }

}

=== FILE: physics.dfy ===
/** The typed engine's default per-entity handlers: `default_physics`,
    `default_animate` and `get_body`.

    The handlers mutate the entity in place; here they return the entity as
    it is afterwards. A handler that reads a property of `undefined` throws a
    TypeError, after the mutations it already made: `Threw` carries the
    entity in that state. Vectors are values: an entity's position,
    velocity and gravity are its own, never shared with another entity or
    with each other. */
module Physics {
  import opened Basics
  import opened Vectors
  import opened DrawOrder
  import opened World

  /** How a handler ended, and the entity it left behind. */
  datatype Step = Done(t: Thing) | Threw(t: Thing)

  /** `typeof velocity_limit !== "number" || velocity.length() <= velocity_limit`:
      whether gravity may be added to velocity `v`. */
  predicate GravityAdmitted(limit: Option<real>, v: Vec) {
    limit.None? || LengthAtMost(v, limit.value)
  }

  /** `default_physics`: an inactive entity, or one without position or
      velocity, is left alone. Otherwise position moves by velocity, and then
      gravity is added to velocity when the limit admits it; adding an unset
      gravity throws, after the position has moved. */
  function DefaultPhysics(t: Thing): (r: Step)
    ensures !t.active || t.position.None? || t.velocity.None? ==> r == Done(t)
    ensures t.active && t.position.Some? && t.velocity.Some? ==>
      var v := t.velocity.value;
      r.t == t.(position := r.t.position, velocity := r.t.velocity)
      && r.t.position == Some(Plus(t.position.value, v))
      && (!GravityAdmitted(t.velocityLimit, v) ==> r.Done? && r.t.velocity == t.velocity)
      && (GravityAdmitted(t.velocityLimit, v) && t.gravity.None? ==> r.Threw? && r.t.velocity == t.velocity)
      && (GravityAdmitted(t.velocityLimit, v) && t.gravity.Some? ==>
            r.Done? && r.t.velocity == Some(Plus(v, t.gravity.value)))
  {
    if !t.active || t.position.None? || t.velocity.None? then Done(t)
    else
      var v := t.velocity.value;
      var moved := t.(position := Some(Plus(t.position.value, v)));
      if !GravityAdmitted(t.velocityLimit, v) then Done(moved)
      else if t.gravity.None? then Threw(moved)
      else Done(moved.(velocity := Some(Plus(v, t.gravity.value))))
  }

  /** The velocity limit in terms of the actual speed `len`: once the speed
      exceeds a numeric limit gravity is no longer added, while the position
      still advances; at or below the limit it is added. */
  lemma GravityStopsAboveLimit(t: Thing, len: real, limit: real)
    requires t.active && t.position.Some? && t.velocity.Some? && t.gravity.Some?
    requires t.velocityLimit == Some(limit)
    requires len >= 0.0 && len * len == LengthSq(t.velocity.value)
    ensures var r := DefaultPhysics(t);
      r.Done? && r.t.position == Some(Plus(t.position.value, t.velocity.value))
    ensures len > limit ==> DefaultPhysics(t).t.velocity == t.velocity
    ensures len <= limit ==> DefaultPhysics(t).t.velocity == Some(Plus(t.velocity.value, t.gravity.value))
  {
    LengthComparison(t.velocity.value, len, limit);
  }

  /** `k` physics steps in a row, stopping at the first that throws. */
  function PhysicsSteps(t: Thing, k: nat): Step
    decreases k
  {
    if k == 0 then Done(t)
    else
      match DefaultPhysics(t)
      case Done(u) => PhysicsSteps(u, k - 1)
      case Threw(u) => Threw(u)
  }

  /** Without gravity an active entity coasts: after `k` steps it has moved
      by `k` times its velocity, which is unchanged. */
  lemma {:induction false} CoastingMovesLinearly(t: Thing, k: nat)
    requires t.active && t.position.Some? && t.velocity.Some?
    requires t.gravity == Some(Origin)
    ensures var r := PhysicsSteps(t, k);
      r.Done? && r.t.velocity == t.velocity
      && r.t.position == Some(Plus(t.position.value, Scaled(t.velocity.value, k as real)))
    decreases k
  {
    var v := t.velocity.value;
    if k > 0 {
      var u := DefaultPhysics(t).t;
      assert u.velocity == t.velocity by {
        if GravityAdmitted(t.velocityLimit, v) {
          assert Plus(v, Origin) == v;
        }
      }
      CoastingMovesLinearly(u, k - 1);
      var p := t.position.value;
      ScaledStep(v, (k - 1) as real);
      assert Plus(Plus(p, v), Scaled(v, (k - 1) as real)) == Plus(p, Scaled(v, k as real));
    }
  }

  /** An inactive entity never moves, however many steps run. */
  lemma {:induction false} InactiveStaysPut(t: Thing, k: nat)
    requires !t.active
    ensures PhysicsSteps(t, k) == Done(t)
    decreases k
  {
    if k > 0 {
      InactiveStaysPut(t, k - 1);
    }
  }

  /** `default_animate`: an active entity with an image takes the next frame
      of its animation. The typed `Anim.next()` returns undefined, so the
      image is cleared; without an animation the call throws. */
  function DefaultAnimate(t: Thing): (r: Step)
    ensures !t.active || t.image.None? ==> r == Done(t)
    ensures t.active && t.image.Some? && t.hasAnim ==> r == Done(t.(image := None))
    ensures t.active && t.image.Some? && !t.hasAnim ==> r == Threw(t)
  {
    if !t.active || t.image.None? then Done(t)
    else if t.hasAnim then Done(t.(image := None))
    else Threw(t)
  }

  /** With the stub animation, animating twice is animating once. */
  lemma AnimateSettles(t: Thing)
    requires t.hasAnim
    ensures DefaultAnimate(DefaultAnimate(t).t) == DefaultAnimate(t)
  {
  }

  /** `get_body`: the explicit body when set; otherwise a box at the
      position, sized by the image (0 without one). Without a position the
      property read throws. */
  function GetBody(t: Thing): (r: Result<Box>)
    ensures t.body.Some? ==> r == Ok(t.body.value)
    ensures t.body.None? && t.position.None? ==> r == Err(TypeError)
    ensures t.body.None? && t.position.Some? ==>
      r.Ok? && r.value.x == t.position.value.x && r.value.y == t.position.value.y
      && (t.image.Some? ==> r.value.width == t.image.value.w && r.value.height == t.image.value.h)
      && (t.image.None? ==> r.value.width == 0.0 && r.value.height == 0.0)
  {
    if t.body.Some? then Ok(t.body.value)
    else if t.position.None? then Err(TypeError)
    else
      var p := t.position.value;
      var w := if t.image.Some? then t.image.value.w else 0.0;
      var h := if t.image.Some? then t.image.value.h else 0.0;
      Ok(Box(p.x, p.y, w, h))
  }

  /** A freshly constructed entity with a position reports the box of its
      image, and physics leaves it where it is (it has no velocity yet). */
  lemma FreshEntityBody(id: Id, p: Vec, img: Image)
    ensures GetBody(Fresh(id, Some(p), Some(img))) == Ok(Box(p.x, p.y, img.w, img.h))
    ensures DefaultPhysics(Fresh(id, Some(p), Some(img))) == Done(Fresh(id, Some(p), Some(img)))
  {
  }
}

=== FILE: player.dfy ===
/** The player character: walks along x towards the last pointer-down
    position at a fixed speed, never left of x = 300, and shows a walking
    animation while it moves and an idle picture when it stands.

    Only x matters to the handlers, so the position is its x coordinate.
    Positions stay whole numbers: the start is 500, targets are floored, and
    steps are 4. `Globals.tick` (the game's own tick counter, incremented
    by a listener created before the player, so already updated) is a
    parameter. */
module Player {
  import opened Basics

  const Speed: int := 4
  const LeftLimit: int := 300
  const StartX: int := 500
  /** Ticks per animation frame. */
  const FrameRate: nat := 10
  /** Frames in each walking animation (`new ImgSet(prefix, 8)`). */
  const WalkFrames: nat := 8

  datatype Walk = WalkRight | WalkLeft

  /** The picture shown: an idle image or a frame of a walking animation. */
  datatype Picture = IdleRight | IdleLeft | WalkFrame(walk: Walk, frame: nat)

  /** `position.x`, the target `go.x`, the image, `activeAnimation`
      (`None` for null) and `animationFrame`. */
  datatype Player = Player(x: int, goX: int, image: Picture, anim: Option<Walk>, frame: nat)

  /** `loadPlayer`: standing at the start with the right-walking animation
      selected, so the first tick settles on the idle image. */
  const Start := Player(StartX, StartX, IdleRight, Some(WalkRight), 0)

  function Abs(n: int): nat {
    if n < 0 then -n else n
  }

  /** How far the player is from its target. */
  function Dist(p: Player): nat {
    Abs(p.goX - p.x)
  }

  function IdleFor(w: Walk): Picture {
    if w == WalkRight then IdleRight else IdleLeft
  }

  /** The animation frame counter: every tenth game tick it advances,
      wrapping after the last frame; without an animation it stays. */
  function NextFrame(p: Player, tick: nat): (f: nat)
    ensures p.frame < WalkFrames ==> f < WalkFrames
    ensures p.anim.None? || tick % FrameRate != 0 ==> f == p.frame
  {
    if p.anim.Some? && tick % FrameRate == 0 then
      if p.frame + 1 >= WalkFrames then 0 else p.frame + 1
    else p.frame
  }

  /** One step towards the target: left when it lies left, then right when
      it (now) lies right, so a step that overshoots is taken back. */
  function Stepped(x: int, goX: int): (r: int)
    ensures goX <= x - Speed ==> r == x - Speed
    ensures x - Speed < goX <= x ==> r == x
    ensures goX > x ==> r == x + Speed
  {
    var x1 := if goX < x then x - Speed else x;
    if goX > x1 then x1 + Speed else x1
  }

  /** The last part of the handler: arriving clears the animation and shows
      the matching idle image; while walking the current frame is shown. */
  function Settle(p: Player, x: int, goX: int, frame: nat): Player {
    if p.anim.Some? && goX == x then Player(x, goX, IdleFor(p.anim.value), None, frame)
    else if p.anim.Some? then Player(x, goX, WalkFrame(p.anim.value, frame), p.anim, frame)
    else Player(x, goX, p.image, None, frame)
  }

  /** The "tick" handler as written: step, clamp to the left limit (moving
      the target too), then snap onto the target when within one step. */
  function PlayerTick(p: Player, tick: nat): (r: Player)
    ensures var s := Stepped(p.x, p.goX);
      s < LeftLimit ==> r.x == LeftLimit && r.goX == LeftLimit
    ensures var s := Stepped(p.x, p.goX);
      s >= LeftLimit ==> r.goX == p.goX && r.x == (if Abs(p.goX - s) <= Speed then p.goX else s)
    ensures r.anim.Some? ==> r.anim == p.anim && r.x != r.goX && r.image == WalkFrame(r.anim.value, r.frame)
    ensures p.anim.Some? && r.anim.None? ==> r.image == IdleFor(p.anim.value)
    ensures p.anim.None? ==> r.anim.None? && r.image == p.image
    ensures p.frame < WalkFrames ==> r.frame < WalkFrames
  {
    var x := Stepped(p.x, p.goX);
    var clamped := x < LeftLimit;
    var x2 := if clamped then LeftLimit else x;
    var goX := if clamped then LeftLimit else p.goX;
    var x3 := if Abs(goX - x2) <= Speed then goX else x2;
    Settle(p, x3, goX, NextFrame(p, tick))
  }

  /** As intended: the snap comes before the clamp, so no tick ends left of
      the limit. */
  function PlayerTickFixed(p: Player, tick: nat): (r: Player)
    ensures r.x >= LeftLimit
    ensures var s := Stepped(p.x, p.goX); var t := if Abs(p.goX - s) <= Speed then p.goX else s;
      (t < LeftLimit ==> r.x == LeftLimit && r.goX == LeftLimit)
      && (t >= LeftLimit ==> r.x == t && r.goX == p.goX)
    ensures r.anim.Some? ==> r.anim == p.anim && r.x != r.goX && r.image == WalkFrame(r.anim.value, r.frame)
    ensures p.anim.Some? && r.anim.None? ==> r.image == IdleFor(p.anim.value)
    ensures p.frame < WalkFrames ==> r.frame < WalkFrames
  {
    var x := Stepped(p.x, p.goX);
    var x2 := if Abs(p.goX - x) <= Speed then p.goX else x;
    var clamped := x2 < LeftLimit;
    var x3 := if clamped then LeftLimit else x2;
    var goX := if clamped then LeftLimit else p.goX;
    Settle(p, x3, goX, NextFrame(p, tick))
  }

  /** The "pointerdown" handler: the floored pointer x becomes the target;
      the player faces and walks towards it, or keeps its state when it is
      already there. */
  function PointerDown(p: Player, px: real): (r: Player)
    ensures r.goX == px.Floor && r.x == p.x && r.frame == p.frame
    ensures r.goX < p.x ==> r.image == IdleLeft && r.anim == Some(WalkLeft)
    ensures r.goX > p.x ==> r.image == IdleRight && r.anim == Some(WalkRight)
    ensures r.goX == p.x ==> r.image == p.image && r.anim == p.anim
  {
    var goX := px.Floor;
    if goX < p.x then p.(goX := goX, image := IdleLeft, anim := Some(WalkLeft))
    else if goX > p.x then p.(goX := goX, image := IdleRight, anim := Some(WalkRight))
    else p.(goX := goX)
  }

  /** A tick never moves the player away from its target: it arrives (and
      stops animating), or comes strictly closer. With a target right of the
      limit the target stays and the player stays right of the limit. */
  lemma TickProgress(p: Player, tick: nat)
    ensures var q := PlayerTick(p, tick);
      (Dist(q) == 0 && q.anim.None?) || (0 < Dist(q) < Dist(p))
    ensures p.goX >= LeftLimit && p.x >= LeftLimit ==>
      PlayerTick(p, tick).goX == p.goX && PlayerTick(p, tick).x >= LeftLimit
    ensures var q := PlayerTick(p, tick);
      p.goX >= LeftLimit && p.x >= LeftLimit ==> q.x == q.goX || Dist(q) == Dist(p) - Speed
  {
  }

  /** Right of the limit, where a tick lands: on the target when it was at
      most two steps away (one step, then the snap), and otherwise exactly
      one step closer on the same side. */
  lemma TickLands(p: Player, tick: nat)
    requires p.goX >= LeftLimit && p.x >= LeftLimit
    ensures Dist(p) <= 2 * Speed ==> PlayerTick(p, tick).x == p.goX
    ensures Dist(p) > 2 * Speed && p.goX < p.x ==> PlayerTick(p, tick).x == p.x - Speed
    ensures Dist(p) > 2 * Speed && p.goX > p.x ==> PlayerTick(p, tick).x == p.x + Speed
  {
  }

  /** The same for the corrected handler. */
  lemma TickProgressFixed(p: Player, tick: nat)
    ensures var q := PlayerTickFixed(p, tick);
      (Dist(q) == 0 && q.anim.None?) || (0 < Dist(q) < Dist(p))
    ensures p.goX >= LeftLimit && p.x >= LeftLimit ==>
      PlayerTickFixed(p, tick).goX == p.goX
  {
  }

  /** Ticks in a row, one per game tick value; `fixed` picks the corrected handler. */
  function PlayerTicks(p: Player, ticks: seq<nat>, fixed: bool): Player
    decreases |ticks|
  {
    if ticks == [] then p
    else PlayerTicks(if fixed then PlayerTickFixed(p, ticks[0]) else PlayerTick(p, ticks[0]), ticks[1..], fixed)
  }

  /** More ticks than the distance to the target bring the player there,
      standing still with no animation; a target right of the limit is
      reached unchanged. */
  lemma {:induction false} Arrives(p: Player, ticks: seq<nat>, fixed: bool)
    requires |ticks| > Dist(p)
    ensures var q := PlayerTicks(p, ticks, fixed);
      q.x == q.goX && q.anim.None?
    ensures p.goX >= LeftLimit && p.x >= LeftLimit ==> PlayerTicks(p, ticks, fixed).goX == p.goX
    decreases |ticks|
  {
    var q := if fixed then PlayerTickFixed(p, ticks[0]) else PlayerTick(p, ticks[0]);
    if fixed { TickProgressFixed(p, ticks[0]); } else { TickProgress(p, ticks[0]); }
    if fixed && p.goX >= LeftLimit && p.x >= LeftLimit {
      assert q.x >= LeftLimit;
    }
    if |ticks| > 1 {
      Arrives(q, ticks[1..], fixed);
    }
  }

  /** The picture of a walk in direction `w`: its animation still runs, or
      it has stopped on the matching idle image. */
  predicate ShowsWalk(p: Player, w: Walk) {
    p.anim == Some(w) || (p.anim.None? && p.image == IdleFor(w))
  }

  /** Ticks never switch a walk to the other direction's pictures. */
  lemma {:induction false} TicksKeepWalk(p: Player, w: Walk, ticks: seq<nat>)
    requires ShowsWalk(p, w)
    ensures ShowsWalk(PlayerTicks(p, ticks, false), w)
    decreases |ticks|
  {
    if ticks != [] {
      var q := PlayerTick(p, ticks[0]);
      assert ShowsWalk(q, w);
      TicksKeepWalk(q, w, ticks[1..]);
    }
  }

  /** A pointer-down right of the limit, followed by more ticks than the
      distance, leaves the player standing on the floored pointer x, with
      no animation and the idle picture facing the way it walked. */
  lemma WalksToPointer(p: Player, px: real, ticks: seq<nat>)
    requires p.x >= LeftLimit && px.Floor >= LeftLimit
    requires |ticks| > Abs(px.Floor - p.x)
    ensures var q := PlayerTicks(PointerDown(p, px), ticks, false);
      q.x == px.Floor && q.goX == px.Floor && q.anim.None?
      && (px.Floor < p.x ==> q.image == IdleLeft)
      && (px.Floor > p.x ==> q.image == IdleRight)
  {
    var d := PointerDown(p, px);
    Arrives(d, ticks, false);
    if px.Floor < p.x {
      TicksKeepWalk(d, WalkLeft, ticks);
    } else if px.Floor > p.x {
      TicksKeepWalk(d, WalkRight, ticks);
    }
  }

  /** The handler as written ends a tick left of the limit: standing at 306,
      a pointer-down at 299 lets the snap put the player at 299. The next
      tick pushes it back to 300. */
  lemma SnapPassesLeftLimit(tick: nat)
    ensures PlayerTick(PointerDown(Player(306, 306, IdleLeft, None, 0), 299.5), tick).x == 299
    ensures PlayerTickFixed(PointerDown(Player(306, 306, IdleLeft, None, 0), 299.5), tick).x == LeftLimit
  {
    assert (299.5).Floor == 299;
  }

  /** That happens from the start: a pointer-down at 306, enough ticks to
      arrive, a pointer-down at 299.5 and one more tick leave the player at
      299, left of the limit. */
  lemma LeftLimitBrokenFromStart(ticks: seq<nat>, tick: nat)
    requires |ticks| > StartX - 306
    ensures var q := PlayerTicks(PointerDown(Start, 306.0), ticks, false);
      q.x == 306 && PlayerTick(PointerDown(q, 299.5), tick).x == 299
  {
    Arrives(PointerDown(Start, 306.0), ticks, false);
    assert (299.5).Floor == 299;
  }
}

=== FILE: scenes.dfy ===
/** The game's scene manager: a registry of named scenes, the active scene,
    and the fade transition to the next or previous scene.

    A scene is an object with `load(fromDirection)` and `unload()` functions
    and the names of its neighbours; here `tag` identifies the object, and
    the calls made to its functions are appended to a log. The fade opacity
    moves in steps of 0.05; it is kept as a whole number of twentieths. */
module Scenes {
  import opened Basics

  /** `DIRECTIONS`: the side a scene is entered from. */
  const FromRight: int := 1
  const FromLeft: int := -1

  /** The fade is opaque at this many twentieths. */
  const Opaque: int := 20

  /** The optional `next`/`previous` scene names. */
  datatype Scene = Scene(tag: nat, next: Option<string>, previous: Option<string>, limits: Option<Limits>)

  /** The walkable margins (`limits.left`, `limits.right`), in pixels. */
  datatype Limits = Limits(left: int, right: int)

  /** A call made to a scene's own functions. */
  datatype SceneCall = Load(tag: nat, from: int) | Unload(tag: nat)

  datatype Manager = Manager(
    scenes: map<string, Scene>,
    active: Option<Scene>,
    transition: bool,
    dir: int,                       // `transitionDir`: 1 fading out, -1 fading in, 0 idle
    opacity: int,                   // `transitionOpacity`, in twentieths
    pendingNext: Option<string>,    // `SceneManager.nextScene`
    pendingPrevious: Option<string>, // `SceneManager.previousScene`
    log: seq<SceneCall>)

  /** A JavaScript string that may be null: truthy when set and non-empty. */
  predicate Named(o: Option<string>) {
    o.Some? && o.value != ""
  }

  /** `loadSceneManager`: no scenes, nothing active, no transition. */
  const Start := Manager(map[], None, false, 0, 0, None, None, [])

  /** `addScene`: registers `scene` under `name`; a missing name or scene throws. */
  function AddScene(m: Manager, name: string, scene: Option<Scene>): (r: Result<Manager>)
    ensures r.Err? <==> name == "" || scene.None?
    ensures r.Err? ==> r.error == MissingSceneArgument
    ensures r.Ok? ==> r.value == m.(scenes := m.scenes[name := scene.value])
  {
    if name == "" || scene.None? then Err(MissingSceneArgument)
    else Ok(m.(scenes := m.scenes[name := scene.value]))
  }

  /** `loadScene`: unloads the active scene, loads the named one from the
      given side and makes it active; an unregistered name throws before
      anything changes. */
  function LoadScene(m: Manager, name: string, from: int): (r: Result<Manager>)
    ensures r.Err? <==> name !in m.scenes
    ensures r.Err? ==> r.error == NoSuchScene(name)
    ensures r.Ok? ==>
      r.value.active == Some(m.scenes[name])
      && r.value.log == m.log + (if m.active.Some? then [Unload(m.active.value.tag)] else [])
                              + [Load(m.scenes[name].tag, from)]
      && r.value == m.(active := r.value.active, log := r.value.log)
  {
    if name !in m.scenes then Err(NoSuchScene(name))
    else
      var scene := m.scenes[name];
      var unloaded := if m.active.Some? then m.log + [Unload(m.active.value.tag)] else m.log;
      Ok(m.(active := Some(scene), log := unloaded + [Load(scene.tag, from)]))
  }

  /** `unloadScene`: unloads the named scene (active or not) and leaves no
      scene active; an unregistered name throws. */
  function UnloadScene(m: Manager, name: string): (r: Result<Manager>)
    ensures r.Err? <==> name !in m.scenes
    ensures r.Err? ==> r.error == NoSuchScene(name)
    ensures r.Ok? ==> r.value == m.(active := None, log := m.log + [Unload(m.scenes[name].tag)])
  {
    if name !in m.scenes then Err(NoSuchScene(name))
    else Ok(m.(active := None, log := m.log + [Unload(m.scenes[name].tag)]))
  }

  /** A registered scene can be loaded at once, and is then active. */
  lemma AddThenLoad(m: Manager, name: string, scene: Scene, from: int)
    requires name != ""
    ensures var a := AddScene(m, name, Some(scene));
      a.Ok? && LoadScene(a.value, name, from).Ok?
      && LoadScene(a.value, name, from).value.active == Some(scene)
      && LoadScene(a.value, name, from).value.log[|LoadScene(a.value, name, from).value.log| - 1]
           == Load(scene.tag, from)
  {
  }

  /** Loading then unloading the same name leaves nothing active, and the
      scene's `load` is followed by its `unload`. */
  lemma LoadThenUnload(m: Manager, name: string, from: int)
    requires name in m.scenes
    ensures var l := LoadScene(m, name, from).value;
      var u := UnloadScene(l, name);
      u.Ok? && u.value.active == None
      && u.value.log[|u.value.log| - 2..] == [Load(m.scenes[name].tag, from), Unload(m.scenes[name].tag)]
  {
  }

  /** `nextScene`: when the active scene names a next scene, starts the
      fade towards it and answers true; otherwise answers false and changes
      nothing. */
  function NextScene(m: Manager): (r: (Manager, bool))
    ensures r.1 <==> m.active.Some? && Named(m.active.value.next)
    ensures !r.1 ==> r.0 == m
    ensures r.1 ==> r.0 == m.(transition := true, dir := 1, pendingNext := m.active.value.next)
  {
    if m.active.None? || !Named(m.active.value.next) then (m, false)
    else (m.(transition := true, dir := 1, pendingNext := m.active.value.next), true)
  }

  /** `previousScene`: the same towards the previous scene. */
  function PreviousScene(m: Manager): (r: (Manager, bool))
    ensures r.1 <==> m.active.Some? && Named(m.active.value.previous)
    ensures !r.1 ==> r.0 == m
    ensures r.1 ==> r.0 == m.(transition := true, dir := 1, pendingPrevious := m.active.value.previous)
  {
    if m.active.None? || !Named(m.active.value.previous) then (m, false)
    else (m.(transition := true, dir := 1, pendingPrevious := m.active.value.previous), true)
  }

  /** How a tick of the scene manager ended: a `loadScene` that throws
      leaves the opacity and direction already updated. */
  datatype Outcome = Ticked(m: Manager) | Threw(m: Manager, error: Error)

  /** The scene to switch to once the screen is opaque: the pending next
      scene, else the pending previous one. */
  function Target(m: Manager): Option<string> {
    if Named(m.pendingNext) then m.pendingNext else m.pendingPrevious
  }

  /** The "tick" handler: during a transition the opacity moves one step in
      the current direction. On reaching opaque the direction turns to fading
      in and the pending scene is loaded, entered from the right when a
      previous-scene request is pending and from the left otherwise; on
      reaching transparent the transition ends. */
  function SceneTick(m: Manager): (r: Outcome)
    ensures !m.transition ==> r == Ticked(m)
    ensures m.transition && m.opacity + m.dir < Opaque && m.opacity + m.dir > 0 ==>
      r == Ticked(m.(opacity := m.opacity + m.dir))
    ensures m.transition && m.opacity + m.dir >= Opaque && !Named(Target(m)) ==>
      r == Ticked(m.(opacity := m.opacity + m.dir, dir := -1))
    ensures m.transition && m.opacity + m.dir >= Opaque && Named(Target(m)) ==>
      var from := if Named(m.pendingPrevious) then FromRight else FromLeft;
      var loaded := LoadScene(m.(opacity := m.opacity + m.dir, dir := -1), Target(m).value, from);
      (loaded.Err? ==> r == Threw(m.(opacity := m.opacity + m.dir, dir := -1), loaded.error))
      && (loaded.Ok? ==> r == Ticked(loaded.value.(pendingNext := None, pendingPrevious := None)))
    ensures m.transition && m.opacity + m.dir <= 0 ==>
      r == Ticked(m.(opacity := 0, dir := 0, transition := false))
  {
    if !m.transition then Ticked(m)
    else
      var stepped := m.(opacity := m.opacity + m.dir);
      var peaked: Outcome :=
        if stepped.opacity < Opaque then Ticked(stepped)
        else
          var turned := stepped.(dir := -1);
          var target := Target(m);
          if !Named(target) then Ticked(turned)
          else
            var from := if Named(m.pendingPrevious) then FromRight else FromLeft;
            match LoadScene(turned, target.value, from)
            case Err(e) => Threw(turned, e)
            case Ok(l) => Ticked(l.(pendingNext := None, pendingPrevious := None));
      match peaked
      case Threw(_, _) => peaked
      case Ticked(p) =>
        if p.opacity <= 0 then Ticked(p.(opacity := 0, dir := 0, transition := false)) else peaked
  }

  /** `k` ticks in a row, stopping at the first that throws. */
  function SceneTicks(m: Manager, k: nat): Outcome
    decreases k
  {
    if k == 0 then Ticked(m)
    else
      match SceneTick(m)
      case Ticked(n) => SceneTicks(n, k - 1)
      case Threw(n, e) => Threw(n, e)
  }

  /** While the fade has not yet reached opaque, each tick only darkens it. */
  lemma {:induction false} FadeOut(m: Manager, k: nat)
    requires m.transition && m.dir == 1 && 0 <= m.opacity && m.opacity + k < Opaque
    ensures SceneTicks(m, k) == Ticked(m.(opacity := m.opacity + k))
    decreases k
  {
    if k > 0 {
      FadeOut(m.(opacity := m.opacity + 1), k - 1);
    }
  }

  /** While fading in above transparent, each tick only lightens it. */
  lemma {:induction false} FadeIn(m: Manager, k: nat)
    requires m.transition && m.dir == -1 && m.opacity <= Opaque && m.opacity - k > 0
    ensures SceneTicks(m, k) == Ticked(m.(opacity := m.opacity - k))
    decreases k
  {
    if k > 0 {
      FadeIn(m.(opacity := m.opacity - 1), k - 1);
    }
  }

  lemma SceneTicksSplit(m: Manager, j: nat, k: nat)
    ensures SceneTicks(m, j + k) ==
      match SceneTicks(m, j)
      case Ticked(n) => SceneTicks(n, k)
      case Threw(n, e) => Threw(n, e)
    decreases j
  {
    if j > 0 {
      match SceneTick(m)
      case Ticked(n) => SceneTicksSplit(n, j - 1, k);
      case Threw(_, _) =>
    }
  }

  /** From a still screen, asking for the next scene fades out for twenty
      ticks, loads that scene (entered from the left) at the twentieth, fades
      in for twenty more and ends the transition; an unregistered next scene
      throws at the twentieth tick instead. */
  lemma NextSceneTransition(m: Manager)
    requires !m.transition && m.opacity == 0
    requires m.pendingNext.None? && m.pendingPrevious.None?
    requires m.active.Some? && Named(m.active.value.next)
    ensures var asked := NextScene(m).0; var name := m.active.value.next.value;
      var loaded := LoadScene(asked.(opacity := Opaque, dir := -1), name, FromLeft);
      (loaded.Err? ==> SceneTicks(asked, 20) == Threw(asked.(opacity := Opaque, dir := -1), NoSuchScene(name)))
      && (loaded.Ok? ==>
            var after := loaded.value.(pendingNext := None, pendingPrevious := None);
            SceneTicks(asked, 20) == Ticked(after)
            && SceneTicks(asked, 40) == Ticked(after.(opacity := 0, dir := 0, transition := false)))
  {
    var asked := NextScene(m).0;
    FadeOut(asked, 19);
    SceneTicksSplit(asked, 19, 1);
    var name := m.active.value.next.value;
    var loaded := LoadScene(asked.(opacity := Opaque, dir := -1), name, FromLeft);
    if loaded.Ok? {
      var after := loaded.value.(pendingNext := None, pendingPrevious := None);
      FadeIn(after, 19);
      SceneTicksSplit(after, 19, 1);
      SceneTicksSplit(asked, 20, 20);
    }
  }

  /** Going back enters the previous scene from the right. */
  lemma PreviousSceneEntersFromRight(m: Manager)
    requires m.transition && m.opacity == Opaque - 1 && m.dir == 1
    requires m.pendingNext.None? && Named(m.pendingPrevious) && m.pendingPrevious.value in m.scenes
    ensures SceneTick(m).Ticked?
    ensures SceneTick(m).m.log[|SceneTick(m).m.log| - 1] == Load(m.scenes[m.pendingPrevious.value].tag, FromRight)
  {
  }

  /** With both requests pending, the next scene wins but is entered from
      the right, the side a previous-scene request enters from. */
  lemma BothPendingLoadsNextFromRight(m: Manager)
    requires m.transition && m.opacity == Opaque - 1 && m.dir == 1
    requires Named(m.pendingNext) && Named(m.pendingPrevious) && m.pendingNext.value in m.scenes
    ensures SceneTick(m).Ticked?
    ensures SceneTick(m).m.log[|SceneTick(m).m.log| - 1] == Load(m.scenes[m.pendingNext.value].tag, FromRight)
  {
  }

  /** The black fade drawn by the "draw" handler: its opacity during a
      transition, none otherwise. */
  function FadeOpacity(m: Manager): (r: Option<real>)
    ensures r.Some? <==> m.transition
    ensures r.Some? ==> r.value * 20.0 == m.opacity as real
  {
    if m.transition then Some(m.opacity as real / 20.0) else None
  }

  /** A filled rectangle of the debug overlay: left edge and width. */
  datatype Band = Band(x: int, width: int, blue: bool)

  /** The debug view of the walkable margins, as written: the left band
      (width `limits.left`, blue when there is a previous scene) is drawn when
      `limits.right` is set, and the right band (width `limits.right`, blue
      when there is a next scene) when `limits.left` is set. */
  function MarginBands(s: Scene, sw: int): (r: seq<Band>)
    ensures s.limits.None? ==> r == []
    ensures s.limits.Some? ==>
      (Band(0, s.limits.value.left, Named(s.previous)) in r <==> s.limits.value.right != 0)
      && (Band(sw - s.limits.value.right, s.limits.value.right, Named(s.next)) in r <==> s.limits.value.left != 0)
  {
    if s.limits.None? then []
    else
      var l := s.limits.value;
      (if l.right != 0 then [Band(0, l.left, Named(s.previous))] else [])
      + (if l.left != 0 then [Band(sw - l.right, l.right, Named(s.next))] else [])
  }

  /** As intended: each band is drawn when its own margin is set. */
  function MarginBandsFixed(s: Scene, sw: int): (r: seq<Band>)
    ensures s.limits.None? ==> r == []
    ensures s.limits.Some? ==>
      (Band(0, s.limits.value.left, Named(s.previous)) in r <==> s.limits.value.left != 0)
      && (Band(sw - s.limits.value.right, s.limits.value.right, Named(s.next)) in r <==> s.limits.value.right != 0)
      && forall b :: b in r ==> b.width != 0
  {
    if s.limits.None? then []
    else
      var l := s.limits.value;
      (if l.left != 0 then [Band(0, l.left, Named(s.previous))] else [])
      + (if l.right != 0 then [Band(sw - l.right, l.right, Named(s.next))] else [])
  }

  /** A scene with only a left margin: as written its left band is not
      drawn and an empty right band is, where the intended overlay shows the
      left band alone. */
  lemma LeftMarginOnlyIsMisdrawn(sw: int)
    ensures var s := Scene(0, None, Some("hallway"), Some(Limits(100, 0)));
      MarginBands(s, sw) == [Band(sw, 0, false)]
      && MarginBandsFixed(s, sw) == [Band(0, 100, true)]
  {
  }
}

=== FILE: scheduler.dfy ===
/** The engine's two loops: the tick loop (`interval`, run by `setInterval`)
    and the drawing loop (`frame`, run by `requestAnimationFrame`).

    Both loops read the shared `splashing` countdown: it starts at 300 (0 when
    the page URL carries `nosplash=`). While it is positive every interval
    only counts it down and every frame draws the splash screen. The wall
    clock `Date.now()` is a parameter: `now` for one interval, and a sequence
    of readings for a run of them.

    The loops are those of the typed engine, which call `update` and
    `draw` directly. The legacy loops call the replaceable hooks
    `Squids.on_time` and `Squids.on_draw` instead; their defaults emit the
    same events, except that the default draw hook emits "draw" without the
    frame count. */
module Scheduler {
  import opened Basics
  import opened DrawOrder
  import opened EventBus

  /** The splash screen lasts this many intervals. */
  const SplashTicks: nat := 300

  /** The loop state: splash countdown, `tick_count`, `draw_count`, `ts_last`. */
  datatype Clock = Clock(splashing: nat, tickCount: nat, drawCount: nat, tsLast: int)

  /** The state when the loops start: `ts_last` is the clock reading at
      start-up, and `nosplash=` in the URL skips the splash screen. */
  function Boot(noSplash: bool, now: int): Clock {
    Clock(if noSplash then 0 else SplashTicks, 0, 0, now)
  }

  /** One `emit(kind, delta, count)` call made by the tick loop. */
  datatype Emission = Emission(kind: Kind, delta: int, count: nat)

  /** The kind of the `i`-th emission of `update`. */
  function UpdateKind(i: nat): Kind {
    if i % 3 == 0 then Physics else if i % 3 == 1 then Tick else Animate
  }

  /** `update(delta, count)`; the legacy default `on_time` hook emits the same. */
  function Update(delta: int, count: nat): (r: seq<Emission>)
    ensures |r| == 3
    ensures forall i :: 0 <= i < 3 ==> r[i] == Emission(UpdateKind(i), delta, count)
  {
    [Emission(Physics, delta, count), Emission(Tick, delta, count), Emission(Animate, delta, count)]
  }

  /** The state after some intervals and what they emitted. */
  datatype Beat = Beat(clock: Clock, emitted: seq<Emission>)

  /** `interval()`: counts the tick and takes the time since the previous
      interval; during the splash screen it only counts the splash down,
      afterwards it runs `update` with that delta and the new tick count. */
  function Interval(c: Clock, now: int): (r: Beat)
    ensures r.clock.tickCount == c.tickCount + 1
    ensures r.clock.tsLast == now && r.clock.drawCount == c.drawCount
    ensures r.emitted == [] <==> c.splashing > 0
    ensures c.splashing > 0 ==> r.clock.splashing == c.splashing - 1
    ensures c.splashing == 0 ==>
      r.clock.splashing == 0 && r.emitted == Update(now - c.tsLast, r.clock.tickCount)
  {
    var ticked := c.(tickCount := c.tickCount + 1, tsLast := now);
    if c.splashing > 0 then Beat(ticked.(splashing := c.splashing - 1), [])
    else Beat(ticked, Update(now - c.tsLast, ticked.tickCount))
  }

  /** One interval per clock reading in `nows`, in order. */
  function Run(c: Clock, nows: seq<int>): Beat
    decreases |nows|
  {
    if nows == [] then Beat(c, [])
    else
      var first := Interval(c, nows[0]);
      var rest := Run(first.clock, nows[1..]);
      Beat(rest.clock, first.emitted + rest.emitted)
  }

  function Min(a: nat, b: nat): nat {
    if a <= b then a else b
  }

  /** The clock reading before the `k`-th interval of a run. */
  function Previous(c: Clock, nows: seq<int>, k: nat): int
    requires k <= |nows|
  {
    if k == 0 then c.tsLast else nows[k - 1]
  }

  /** A run of intervals: every one is counted; the first `splashing` of
      them are silent; each later one emits physics, tick and animate, with
      the tick count it brought the counter to and the time since the interval
      before it, silent or not. */
  lemma {:induction false} RunSpec(c: Clock, nows: seq<int>)
    ensures var r := Run(c, nows); var silent := Min(c.splashing, |nows|);
      r.clock.tickCount == c.tickCount + |nows|
      && r.clock.drawCount == c.drawCount
      && r.clock.splashing == c.splashing - silent
      && r.clock.tsLast == Previous(c, nows, |nows|)
      && |r.emitted| == 3 * (|nows| - silent)
      && forall i :: 0 <= i < |r.emitted| ==>
           r.emitted[i].kind == UpdateKind(i)
           && r.emitted[i].count == c.tickCount + silent + i / 3 + 1
           && r.emitted[i].delta == nows[silent + i / 3] - Previous(c, nows, silent + i / 3)
    decreases |nows|
  {
    if nows != [] {
      var first := Interval(c, nows[0]);
      var c' := first.clock;
      var tail := nows[1..];
      RunSpec(c', tail);
      var rest := Run(c', tail);
      var r := Run(c, nows);
      assert r.emitted == first.emitted + rest.emitted;
      forall k | 0 <= k <= |tail|
        ensures Previous(c', tail, k) == Previous(c, nows, k + 1)
      {
      }
      if c.splashing > 0 {
        assert Min(c'.splashing, |tail|) + 1 == Min(c.splashing, |nows|);
      } else {
        forall i | 3 <= i < |r.emitted|
          ensures r.emitted[i].kind == UpdateKind(i)
          ensures r.emitted[i].count == c.tickCount + i / 3 + 1
          ensures r.emitted[i].delta == nows[i / 3] - Previous(c, nows, i / 3)
        {
          assert r.emitted[i] == rest.emitted[i - 3];
          assert (i - 3) / 3 == i / 3 - 1 && (i - 3) % 3 == i % 3;
        }
      }
    }
  }

  /** From start-up with the splash screen, the first 300 intervals emit
      nothing; the 301st emits physics, tick and animate with tick count 301
      and the time since the 300th. */
  lemma SplashThenUpdate(t0: int, nows: seq<int>)
    requires |nows| == SplashTicks + 1
    ensures Run(Boot(false, t0), nows[..SplashTicks]).emitted == []
    ensures Run(Boot(false, t0), nows).emitted
      == Update(nows[SplashTicks] - nows[SplashTicks - 1], SplashTicks + 1)
  {
    var c := Boot(false, t0);
    RunSpec(c, nows[..SplashTicks]);
    RunSpec(c, nows);
    var r := Run(c, nows).emitted;
    var u := Update(nows[SplashTicks] - nows[SplashTicks - 1], SplashTicks + 1);
    forall i | 0 <= i < 3
      ensures r[i] == u[i]
    {
      assert i / 3 == 0;
    }
  }

  /** With `nosplash=` the first interval already emits, with tick count 1
      and the time since start-up. */
  lemma NoSplashUpdatesAtOnce(t0: int, now: int)
    ensures Interval(Boot(true, t0), now).emitted == Update(now - t0, 1)
  {
  }

  /** Every emission of the tick loop reaches the bus: `emit` refuses to
      dispatch only while splashing, and an interval only emits once the
      splash screen is over. */
  lemma UpdatesReachListeners(c: Clock, now: int, b: Bus, active: set<Id>)
    ensures var r := Interval(c, now);
      forall e :: e in r.emitted ==> Emit(b, r.clock.splashing, e.kind, active).Some?
  {
  }

  /** What a frame shows. */
  datatype Picture = Splash | DrawFrame(count: nat)

  /** The typed `frame()`: counts the frame; draws the splash screen while
      the splash countdown runs and otherwise calls `draw`, which emits
      "draw" with the new frame count. */
  function Frame(c: Clock): (r: (Clock, Picture))
    ensures r.0 == c.(drawCount := c.drawCount + 1)
    ensures r.1.Splash? <==> c.splashing > 0
    ensures r.1.DrawFrame? ==> r.1.count == r.0.drawCount
  {
    var counted := c.(drawCount := c.drawCount + 1);
    (counted, if c.splashing > 0 then Splash else DrawFrame(counted.drawCount))
  }

  /** `k` frames in a row, and the pictures they showed. */
  function Frames(c: Clock, k: nat): (Clock, seq<Picture>)
    decreases k
  {
    if k == 0 then (c, [])
    else
      var first := Frame(c);
      var rest := Frames(first.0, k - 1);
      (rest.0, [first.1] + rest.1)
  }

  /** Frames never end the splash screen (only intervals count it down);
      after it, successive frames draw with consecutive frame counts. */
  lemma {:induction false} FramesSpec(c: Clock, k: nat)
    ensures var r := Frames(c, k);
      r.0 == c.(drawCount := c.drawCount + k)
      && |r.1| == k
      && forall i :: 0 <= i < k ==>
           r.1[i] == if c.splashing > 0 then Splash else DrawFrame(c.drawCount + i + 1)
    decreases k
  {
    if k > 0 {
      var first := Frame(c);
      FramesSpec(first.0, k - 1);
      var r := Frames(c, k);
      forall i | 1 <= i < k
        ensures r.1[i] == if c.splashing > 0 then Splash else DrawFrame(c.drawCount + i + 1)
      {
        assert r.1[i] == Frames(first.0, k - 1).1[i - 1];
      }
    }
  }
}

=== FILE: vector.dfy ===
/** Three-component vectors.

    Both engine variants keep positions, velocities and sizes in `{x, y, z}`
    records. The legacy `vec()` helper and its `add`/`sub`/`mlt`/`div` methods
    accept loose argument lists (a lone number is broadcast to all three
    components, missing trailing numbers default to 0, a vector is copied),
    while the typed `Vector` class only combines two vectors. The methods
    mutate their receiver and return it; here they return the new value. */
module Vectors {
  import opened Basics

  datatype Vec = Vec(x: real, y: real, z: real)

  const Origin: Vec := Vec(0.0, 0.0, 0.0)

  /** The argument lists accepted by the legacy `vec()` and its methods. */
  datatype Args =
    | NoArgs                                // vec()
    | One(n: real)                          // vec(n): broadcast
    | Two(a: real, b: real)                 // vec(a, b): z defaults to 0
    | Three(a: real, b: real, c: real)      // vec(a, b, c)
    | Of(v: Vec)                            // vec(v): copy of another vector

  /** The triple an argument list stands for. */
  function Triple(args: Args): Vec {
    match args
    case NoArgs => Origin
    case One(n) => Vec(n, n, n)
    case Two(a, b) => Vec(a, b, 0.0)
    case Three(a, b, c) => Vec(a, b, c)
    case Of(v) => v
  }

  predicate NonZero(v: Vec) {
    v.x != 0.0 && v.y != 0.0 && v.z != 0.0
  }

  // Component-wise arithmetic (the typed `Vector.add/sub/mlt/div`).

  function Plus(v: Vec, w: Vec): (r: Vec)
    ensures r.x - w.x == v.x && r.y - w.y == v.y && r.z - w.z == v.z
  {
    Vec(v.x + w.x, v.y + w.y, v.z + w.z)
  }

  function Minus(v: Vec, w: Vec): (r: Vec)
    ensures Plus(r, w) == v
  {
    Vec(v.x - w.x, v.y - w.y, v.z - w.z)
  }

  function Times(v: Vec, w: Vec): (r: Vec)
    ensures NonZero(w) ==> r.x / w.x == v.x && r.y / w.y == v.y && r.z / w.z == v.z
  {
    Vec(v.x * w.x, v.y * w.y, v.z * w.z)
  }

  /** Division by a zero component gives Infinity or NaN in JavaScript; the
      reals have neither, so the divisor must be non-zero here. */
  function Quotient(v: Vec, w: Vec): (r: Vec)
    requires NonZero(w)
    ensures Times(r, w) == v
  {
    Vec(v.x / w.x, v.y / w.y, v.z / w.z)
  }

  /** `k` copies of `v` added together: the displacement of `k` equal steps. */
  function Scaled(v: Vec, k: real): (r: Vec)
    ensures k == 0.0 ==> r == Origin
    ensures k == 1.0 ==> r == v
  {
    Vec(k * v.x, k * v.y, k * v.z)
  }

  /** Each further copy adds one step: `k` steps and then one more are
      `k + 1` steps. */
  lemma ScaledStep(v: Vec, k: real)
    ensures Plus(Scaled(v, k), v) == Scaled(v, k + 1.0)
  {
  }

  // The legacy `vec()` helper and its in-place methods.

  /** `vec(...)`: a fresh vector; a lone number fills all three components,
      a vector argument is cloned. */
  function NewVec(args: Args): (r: Vec)
    ensures args.Of? ==> r == args.v
    ensures args.One? ==> r.x == args.n && r.y == args.n && r.z == args.n
    ensures args.Two? ==> r.x == args.a && r.y == args.b && r.z == 0.0
    ensures args.NoArgs? ==> r == Origin
  {
    Triple(args)
  }

  /** `v.sub(...)`: subtracts the triple `vec(...)` would build; `add` undoes it. */
  function Sub(v: Vec, args: Args): (r: Vec)
    ensures r == Minus(v, NewVec(args))
    ensures Plus(r, Triple(args)) == v
  {
    Minus(v, Triple(args))
  }

  /** `v.add(...)`: adds the triple `vec(...)` would build; `sub` undoes it. */
  function Add(v: Vec, args: Args): (r: Vec)
    ensures r == Plus(v, NewVec(args))
    ensures Sub(r, args) == v
  {
    Plus(v, Triple(args))
  }

  /** `v.div(...)`: component-wise quotient; `mlt` with the same arguments undoes it. */
  function Div(v: Vec, args: Args): (r: Vec)
    requires NonZero(Triple(args))
    ensures Times(r, NewVec(args)) == v
  {
    Quotient(v, Triple(args))
  }

  /** `v.mlt(...)`: component-wise product; `mlt()` with no argument zeroes `v`. */
  function Mlt(v: Vec, args: Args): (r: Vec)
    ensures r == Times(v, NewVec(args))
    ensures args.NoArgs? ==> r == Origin
    ensures NonZero(Triple(args)) ==> Div(r, args) == v
  {
    Times(v, Triple(args))
  }

  /** `v.mlt(k)` with a single number scales every component by `k`. */
  lemma MltByScalar(v: Vec, k: real)
    ensures Mlt(v, One(k)) == Scaled(v, k)
  {
  }

  /** The legacy squared magnitude `qmag`, which leaves `z` out. */
  function QMag(v: Vec): (r: real)
    ensures r >= 0.0
    ensures r == LengthSq(v.(z := 0.0))
  {
    v.x * v.x + v.y * v.y
  }

  // The typed `Vector` class.

  /** `new Vector(x, y?, z?)`: absent components (`y || 0`) become 0. */
  function MakeVector(x: real, y: Option<real>, z: Option<real>): (r: Vec)
    ensures r.x == x
    ensures r.y == (if y.Some? then y.value else 0.0)
    ensures r.z == (if z.Some? then z.value else 0.0)
    ensures y.None? && z.None? ==> r == NewVec(Two(x, 0.0))
  {
    Vec(x, if y.Some? then y.value else 0.0, if z.Some? then z.value else 0.0)
  }

  /** The square of `Vector.length()`; unlike `qmag` it includes `z`. */
  function LengthSq(v: Vec): (r: real)
    ensures r >= 0.0
    ensures v == Origin ==> r == 0.0
  {
    SquareZero(v.x);
    SquareZero(v.y);
    SquareZero(v.z);
    v.x * v.x + v.y * v.y + v.z * v.z
  }

  lemma SquareZero(a: real)
    ensures a * a >= 0.0
    ensures a != 0.0 ==> a * a > 0.0
  {
    if a < 0.0 {
      var b := -a;
      assert b * b > 0.0;
      assert b * b == a * a;
    } else if a > 0.0 {
      assert a * a > 0.0;
    }
  }

  /** Squaring is monotone on non-negative reals, in both directions. */
  lemma SquareMonotone(a: real, b: real)
    requires a >= 0.0 && b >= 0.0
    ensures a <= b <==> a * a <= b * b
  {
    if a <= b {
      assert a * a <= a * b;
      assert a * b <= b * b;
    } else {
      var d := a - b;
      assert d * a > 0.0;
      assert d * b >= 0.0;
      assert a * a - b * b == d * a + d * b;
    }
  }

  /** `v.length() <= limit`, stated without square roots. */
  predicate LengthAtMost(v: Vec, limit: real) {
    limit >= 0.0 && LengthSq(v) <= limit * limit
  }

  /** `LengthAtMost` agrees with comparing the actual (non-negative) length
      `len`, whose square is `LengthSq(v)`, against the limit. */
  lemma LengthComparison(v: Vec, len: real, limit: real)
    requires len >= 0.0 && len * len == LengthSq(v)
    ensures len <= limit <==> LengthAtMost(v, limit)
  {
    if limit >= 0.0 {
      SquareMonotone(len, limit);
    }
  }
}

=== FILE: world.dfy ===
/** Entities (`Thing`s), the id counter and the registry of live entities.

    An entity gets the next number of the global `seq` counter as its id, is
    subscribed to physics, tick, animate and draw with its default handlers
    when it is constructed, and leaves every table again when it is destroyed.
    The world keeps every entity ever constructed (a destroyed entity object
    still exists and may be used), each one's draw priority, the registry
    `all_things` of the ones not yet destroyed, and the event bus. */
module World {
  import opened Basics
  import opened Vectors
  import opened Ordering
  import opened DrawOrder
  import opened EventBus

  /** A loaded image: only its size matters here. */
  datatype Image = Image(w: real, h: real)

  /** The rectangle `get_body` reports. */
  datatype Box = Box(x: real, y: real, width: real, height: real)

  /** The state of a `Thing` the engine reads and writes, apart from its
      draw priority (kept in `World.priority`). Absent optional fields are
      `undefined`; `hasAnim` says whether `anim` is set (the typed `Anim` is a
      stub whose `next()` returns undefined). */
  datatype Thing = Thing(
    id: Id,
    active: bool,
    position: Option<Vec>,
    velocity: Option<Vec>,
    gravity: Option<Vec>,
    velocityLimit: Option<real>,
    image: Option<Image>,
    body: Option<Box>,
    hasAnim: bool)

  /** `priority` holds each entity's `t.priority`; an entity without an entry
      counts as priority 0 (see `PriorityOf`). */
  datatype World = World(
    seqNum: nat,
    things: map<Id, Thing>,
    priority: map<Id, int>,
    registry: set<Id>,
    bus: Bus)

  /** The typed engine at start-up: no entities, the five declared tables. */
  const Start: World := World(0, map[], map[], {}, TypedStart)

  /** The entities whose `active` flag is set. */
  function ActiveIds(w: World): set<Id> {
    set id | id in w.things && w.things[id].active
  }

  /** Ids come from the counter: each is positive, at most the counter, and
      names the entity stored under it. */
  predicate IdsIssued(w: World) {
    forall id :: id in w.things ==> 0 < id <= w.seqNum && w.things[id].id == id
  }

  /** What every reachable state of the typed engine satisfies. */
  predicate Valid(w: World) {
    IdsIssued(w)
    && w.registry <= w.things.Keys
    && w.bus.listeners.Keys == DeclaredKinds
    && RefsIn(w.bus, w.things.Keys)
    && DrawCovered(w.bus, w.priority)
  }

  lemma StartValid()
    ensures Valid(Start) && Synced(Start.bus, Start.priority)
  {
    SortForDrawSpec(map[], map[]);
  }

  /** `seq()`: the id it hands out, which is also the counter afterwards. */
  function NextId(w: World): (r: Id)
    ensures r == w.seqNum + 1
    ensures IdsIssued(w) ==> r !in w.things && forall id :: id in w.things ==> id < r
  {
    w.seqNum + 1
  }

  /** The result of constructing an entity: the new world and the new id. */
  datatype Made = Made(w: World, id: Id)

  /** A freshly constructed entity, as the typed constructor leaves it. */
  function Fresh(id: Id, position: Option<Vec>, image: Option<Image>): Thing {
    Thing(id, true, position, None, None, None, image, None, false)
  }

  /** The types the constructor subscribes to. */
  const DefaultKinds: set<Kind> := {Physics, Tick, Animate, Draw}

  /** The four subscriptions the constructor makes, in its order: physics,
      tick, animate, then draw (which re-sorts the draw array). */
  function SubscribeDefaults(b: Bus, id: Id, pri: map<Id, int>): Bus {
    // `listen` on a type other than draw is `Store` alone; on draw it is
    // `Store` followed by `Resort` (see `Listen`).
    var b1 := Store(b, Physics, id, DefaultPhysics);
    var b2 := Store(b1, Tick, id, DefaultTick);
    var b3 := Store(b2, Animate, id, DefaultAnimate);
    Resort(Store(b3, Draw, id, DefaultDraw), pri)
  }

  /** The four subscriptions store the default handlers under `id` in the
      four default tables, create them if needed, and leave every other
      table alone; the draw array is re-sorted. */
  lemma SubscribeDefaultsTables(b: Bus, id: Id, pri: map<Id, int>)
    ensures var r := SubscribeDefaults(b, id, pri);
      r.listeners[Physics] == TableOf(b, Physics)[id := DefaultPhysics]
      && r.listeners[Tick] == TableOf(b, Tick)[id := DefaultTick]
      && r.listeners[Animate] == TableOf(b, Animate)[id := DefaultAnimate]
      && r.listeners[Draw] == TableOf(b, Draw)[id := DefaultDraw]
      && r.listeners.Keys == b.listeners.Keys + DefaultKinds
      && (forall k :: k in b.listeners && k !in DefaultKinds ==> r.listeners[k] == b.listeners[k])
      && Synced(r, pri)
  {
    var b1 := Store(b, Physics, id, DefaultPhysics);
    var b2 := Store(b1, Tick, id, DefaultTick);
    var b3 := Store(b2, Animate, id, DefaultAnimate);
    var b4 := Store(b3, Draw, id, DefaultDraw);
    assert SubscribeDefaults(b, id, pri).listeners == b4.listeners;
    assert TableOf(b1, Tick) == TableOf(b, Tick);
    assert TableOf(b2, Animate) == TableOf(b, Animate);
    assert TableOf(b3, Draw) == TableOf(b, Draw);
  }

  /** The subscriptions are exactly four `listen` calls in the constructor's
      order. */
  lemma SubscribeDefaultsIsFourListens(b: Bus, id: Id, pri: map<Id, int>)
    ensures SubscribeDefaults(b, id, pri)
      == Listen(Listen(Listen(Listen(b, Physics, id, DefaultPhysics, pri), Tick, id, DefaultTick, pri),
                       Animate, id, DefaultAnimate, pri), Draw, id, DefaultDraw, pri)
  {
  }

  /** The subscriptions refer only to known entities and the new one. */
  lemma SubscribeDefaultsRefs(b: Bus, id: Id, pri: map<Id, int>, ids: set<Id>)
    requires RefsIn(b, ids) && id in ids
    ensures RefsIn(SubscribeDefaults(b, id, pri), ids)
  {
    var b1 := Listen(b, Physics, id, DefaultPhysics, pri);
    var b2 := Listen(b1, Tick, id, DefaultTick, pri);
    var b3 := Listen(b2, Animate, id, DefaultAnimate, pri);
    ListenKeepsRefs(b, Physics, id, DefaultPhysics, pri, ids);
    ListenKeepsRefs(b1, Tick, id, DefaultTick, pri, ids);
    ListenKeepsRefs(b2, Animate, id, DefaultAnimate, pri, ids);
    ListenKeepsRefs(b3, Draw, id, DefaultDraw, pri, ids);
    SubscribeDefaultsIsFourListens(b, id, pri);
  }

  /** The typed `Thing` constructor as written: it draws an id, stores the
      entity with priority 0 and subscribes it to physics, tick, animate and
      draw, but never adds it to `all_things`. */
  function ConstructTyped(w: World, position: Option<Vec>, image: Option<Image>): (r: Made)
    ensures r.id == w.seqNum + 1 && r.w.seqNum == r.id
    ensures r.w.things == w.things[r.id := Fresh(r.id, position, image)]
    ensures r.w.priority == w.priority[r.id := 0]
    ensures r.w.registry == w.registry
    ensures r.w.bus == SubscribeDefaults(w.bus, r.id, r.w.priority)
  {
    var id := NextId(w);
    var priority := w.priority[id := 0];
    Made(World(id, w.things[id := Fresh(id, position, image)], priority, w.registry,
               SubscribeDefaults(w.bus, id, priority)), id)
  }

  /** Construction draws an id larger than every earlier one, keeps the
      world valid and leaves the draw array exactly sorted. */
  lemma ConstructTypedValid(w: World, position: Option<Vec>, image: Option<Image>)
    requires Valid(w)
    ensures var r := ConstructTyped(w, position, image);
      r.id !in w.things && (forall id :: id in w.things ==> id < r.id)
      && Valid(r.w) && Synced(r.w.bus, r.w.priority)
  {
    var r := ConstructTyped(w, position, image);
    SubscribeDefaultsTables(w.bus, r.id, r.w.priority);
    SubscribeDefaultsRefs(w.bus, r.id, r.w.priority, r.w.things.Keys);
    SyncedIsCovered(r.w.bus, r.w.priority);
  }

  /** The typed constructor with the registration the legacy constructor
      performs (`all_things[id] = this`), as the typed one evidently
      intends. The entity keeps the typed defaults (no velocity, no gravity). */
  function Construct(w: World, position: Option<Vec>, image: Option<Image>): (r: Made)
    ensures r.id == ConstructTyped(w, position, image).id
    ensures r.w == ConstructTyped(w, position, image).w.(registry := w.registry + {r.id})
  {
    var m := ConstructTyped(w, position, image);
    Made(m.w.(registry := w.registry + {m.id}), m.id)
  }

  lemma ConstructValid(w: World, position: Option<Vec>, image: Option<Image>)
    requires Valid(w)
    ensures var r := Construct(w, position, image);
      r.id in r.w.registry && Valid(r.w) && Synced(r.w.bus, r.w.priority)
  {
    ConstructTypedValid(w, position, image);
  }

  // Methods of a `Thing`, applied to the entity with id `id`. The caller
  // holds the entity, so it exists; it may already have been destroyed.

  /** `thing.listen(kind, f)` in the typed engine. */
  function ThingListen(w: World, id: Id, kind: Kind, f: Handler): (r: Result<World>)
    ensures r.Err? <==> kind !in w.bus.listeners
    ensures r.Err? ==> r.error == UnknownEventType(NameOf(kind))
    ensures r.Ok? ==> r.value == w.(bus := Listen(w.bus, kind, id, f, w.priority))
  {
    match ListenChecked(w.bus, kind, id, f, w.priority)
    case Ok(b) => Ok(w.(bus := b))
    case Err(e) => Err(e)
  }

  /** In a valid world `listen` succeeds exactly for the declared types and
      keeps the world valid. */
  lemma ThingListenValid(w: World, id: Id, kind: Kind, f: Handler)
    requires Valid(w) && id in w.things
    ensures ThingListen(w, id, kind, f).Ok? <==> kind in DeclaredKinds
    ensures ThingListen(w, id, kind, f).Ok? ==> Valid(ThingListen(w, id, kind, f).value)
  {
    if kind in DeclaredKinds {
      ListenKeepsDrawCovered(w.bus, kind, id, f, w.priority);
      ListenKeepsRefs(w.bus, kind, id, f, w.priority, w.things.Keys);
    }
  }

  /** `thing.ignore(kind)`. */
  function ThingIgnore(w: World, id: Id, kind: Kind): (r: World)
    ensures r == w.(bus := Ignore(w.bus, kind, id))
    ensures kind in w.bus.listeners ==> id !in r.bus.listeners[kind]
  {
    w.(bus := Ignore(w.bus, kind, id))
  }

  /** `thing.ignore_all()`. */
  function ThingIgnoreAll(w: World, id: Id): (r: World)
    ensures r == w.(bus := IgnoreAll(w.bus, id))
    ensures forall k :: k in r.bus.listeners ==> id !in r.bus.listeners[k]
  {
    w.(bus := IgnoreAll(w.bus, id))
  }

  /** `thing.destroy()`: `ignore_all` and removal from `all_things`. */
  function Destroy(w: World, id: Id): (r: World)
    ensures r.registry == w.registry - {id}
    ensures r.things == w.things && r.priority == w.priority && r.seqNum == w.seqNum
    ensures r.bus.listeners.Keys == w.bus.listeners.Keys
    ensures forall k :: k in r.bus.listeners ==> Drops(r.bus.listeners[k], w.bus.listeners[k], id)
    ensures Draw in w.bus.listeners ==>
      forall e :: e in r.bus.sortedDraw <==> e in w.bus.sortedDraw && e.id != id
  {
    var v := ThingIgnoreAll(w, id);
    v.(registry := v.registry - {id})
  }

  /** Destroying twice is the same as destroying once. */
  lemma DestroyIdempotent(w: World, id: Id)
    ensures Destroy(Destroy(w, id), id) == Destroy(w, id)
  {
    var once := Destroy(w, id);
    var twice := Destroy(once, id);
    forall k | k in once.bus.listeners
      ensures twice.bus.listeners[k] == once.bus.listeners[k]
    {
      assert once.bus.listeners[k] == w.bus.listeners[k] - {id};
      assert twice.bus.listeners[k] == once.bus.listeners[k] - {id};
    }
    assert twice.bus.listeners == once.bus.listeners;
    if Draw in w.bus.listeners {
      SelectTwice(w.bus.sortedDraw, j => j != id);
    }
  }

  /** `ignore` keeps the world valid. */
  lemma ThingIgnoreValid(w: World, id: Id, kind: Kind)
    requires Valid(w)
    ensures Valid(ThingIgnore(w, id, kind))
  {
    IgnoreKeepsDrawCovered(w.bus, kind, id, w.priority);
    IgnoreKeepsRefs(w.bus, kind, id, w.things.Keys);
  }

  /** `ignore_all` keeps the world valid. */
  lemma ThingIgnoreAllValid(w: World, id: Id)
    requires Valid(w)
    ensures Valid(ThingIgnoreAll(w, id))
  {
    IgnoreAllKeepsDrawCovered(w.bus, id, w.priority);
    IgnoreAllKeepsRefs(w.bus, id, w.things.Keys);
  }

  /** `destroy` keeps the world valid. */
  lemma DestroyValid(w: World, id: Id)
    requires Valid(w)
    ensures Valid(Destroy(w, id))
  {
    ThingIgnoreAllValid(w, id);
  }

  /** The ids a sequence lists. */
  function Listed(ids: seq<Id>): set<Id> {
    set i | i in ids
  }

  /** `destroy()` on each entity of `ids` in turn. */
  function DestroyEach(w: World, ids: seq<Id>): World
    decreases |ids|
  {
    if ids == [] then w else DestroyEach(Destroy(w, ids[0]), ids[1..])
  }

  /** Destroying a list of entities removes exactly them from the registry,
      from every table and from the draw array, and changes nothing else. */
  lemma {:induction false} DestroyEachSpec(w: World, ids: seq<Id>)
    ensures var r := DestroyEach(w, ids);
      r.registry == w.registry - Listed(ids)
      && r.things == w.things && r.priority == w.priority && r.seqNum == w.seqNum
      && r.bus.listeners.Keys == w.bus.listeners.Keys
      && (forall k :: k in r.bus.listeners ==> r.bus.listeners[k] == w.bus.listeners[k] - Listed(ids))
      && (Draw in w.bus.listeners ==>
            forall e :: e in r.bus.sortedDraw <==> e in w.bus.sortedDraw && e.id !in Listed(ids))
    decreases |ids|
  {
    if ids != [] {
      var d := Destroy(w, ids[0]);
      DestroyEachSpec(d, ids[1..]);
      assert Listed(ids) == {ids[0]} + Listed(ids[1..]);
      var r := DestroyEach(w, ids);
      forall k | k in r.bus.listeners
        ensures r.bus.listeners[k] == w.bus.listeners[k] - Listed(ids)
      {
        assert d.bus.listeners[k] == w.bus.listeners[k] - {ids[0]};
      }
    }
  }

  /** `destroy_things()` (and the entity part of `reset()`): destroys every
      registered entity in ascending id order, then empties the registry. */
  function DestroyThings(w: World): World {
    DestroyEach(w, Ascending(w.registry)).(registry := {})
  }

  /** After `destroy_things` no registered entity listens for anything or
      is drawn, every other entity keeps its entries, and the world stays
      valid. */
  lemma DestroyThingsSpec(w: World)
    ensures var r := DestroyThings(w);
      r.registry == {} && r.things == w.things && r.priority == w.priority
      && r.bus.listeners.Keys == w.bus.listeners.Keys
      && (forall k :: k in r.bus.listeners ==> r.bus.listeners[k] == w.bus.listeners[k] - w.registry)
      && (Draw in w.bus.listeners ==>
            forall e :: e in r.bus.sortedDraw <==> e in w.bus.sortedDraw && e.id !in w.registry)
  {
    var ids := Ascending(w.registry);
    DestroyEachSpec(w, ids);
    assert Listed(ids) == w.registry;
  }

  lemma {:induction false} DestroyEachValid(w: World, ids: seq<Id>)
    requires Valid(w)
    ensures Valid(DestroyEach(w, ids))
    decreases |ids|
  {
    if ids != [] {
      DestroyValid(w, ids[0]);
      DestroyEachValid(Destroy(w, ids[0]), ids[1..]);
    }
  }

  lemma DestroyThingsValid(w: World)
    requires Valid(w)
    ensures Valid(DestroyThings(w))
  {
    DestroyEachValid(w, Ascending(w.registry));
  }

  /** The answer of `draw_priority`: the current priority when called
      without an argument, otherwise the entity (in the updated world). */
  datatype PriorityReply = Current(priority: int) | Changed(w: World)

  /** `thing.draw_priority(n)`: without `n` it reports the priority;
      otherwise it stores `floor(n)` and re-sorts the draw array. The typed
      engine's draw table always exists. */
  function DrawPriority(w: World, id: Id, n: Option<real>): (r: PriorityReply)
    requires Draw in w.bus.listeners
    ensures r.Current? <==> n.None?
    ensures r.Current? ==> r.priority == PriorityOf(w.priority, id)
    ensures r.Changed? ==>
      var p := PriorityOf(r.w.priority, id);
      (p as real) <= n.value < (p as real) + 1.0
      && r.w.priority == w.priority[id := p]
      && r.w.things == w.things && r.w.registry == w.registry && r.w.seqNum == w.seqNum
      && r.w.bus.listeners == w.bus.listeners
      && Synced(r.w.bus, r.w.priority)
  {
    if n.None? then Current(PriorityOf(w.priority, id))
    else
      var priority := w.priority[id := n.value.Floor];
      Changed(w.(priority := priority, bus := Resort(w.bus, priority)))
  }

  /** Reading the priority back gives the floor of what was set, and setting
      the same value twice is setting it once. */
  lemma DrawPriorityRoundTrip(w: World, id: Id, x: real)
    requires Draw in w.bus.listeners
    ensures var v := DrawPriority(w, id, Some(x)).w;
      DrawPriority(v, id, None) == Current(x.Floor)
      && DrawPriority(v, id, Some(x)) == Changed(v)
  {
    var v := DrawPriority(w, id, Some(x)).w;
    assert v.priority[id := x.Floor] == v.priority;
  }

  /** Setting a priority keeps the world valid. */
  lemma DrawPriorityValid(w: World, id: Id, x: real)
    requires Valid(w)
    ensures Valid(DrawPriority(w, id, Some(x)).w)
  {
    var v := DrawPriority(w, id, Some(x)).w;
    SyncedIsCovered(v.bus, v.priority);
    SortForDrawSpec(v.bus.listeners[Draw], v.priority);
    forall e | e in v.bus.sortedDraw
      ensures e.id in v.things
    {
      assert Holds(v.bus.listeners[Draw], e);
    }
  }

  /** `emit(kind, ...)` in a world: a handler runs exactly when its entity
      is active. */
  function EmitWorld(w: World, splashing: nat, kind: Kind): (r: Option<Dispatch>)
    ensures r.None? <==> splashing > 0
    ensures r.Some? ==> forall e :: e in r.value.invoked <==>
      e in r.value.visited && e.id in w.things && w.things[e.id].active
    ensures r.Some? && kind == Draw && Draw in w.bus.listeners ==> r.value.visited == w.bus.sortedDraw
  {
    Emit(w.bus, splashing, kind, ActiveIds(w))
  }

  /** The typed engine as written: an entity built by the constructor is
      not in `all_things`, so `destroy_things` (and `reset`) leave its tick
      handler subscribed. */
  lemma DestroyThingsKeepsTypedThing(w: World, position: Option<Vec>, image: Option<Image>)
    requires Valid(w)
    ensures var m := ConstructTyped(w, position, image);
      Holds(TableOf(DestroyThings(m.w).bus, Tick), Entry(m.id, DefaultTick))
  {
    var m := ConstructTyped(w, position, image);
    SubscribeDefaultsTables(w.bus, m.id, m.w.priority);
    DestroyThingsSpec(m.w);
    assert m.id !in m.w.registry;
  }

  /** So the next tick after `destroy_things` still calls that handler. */
  lemma DestroyThingsMissesTypedThing(w: World, position: Option<Vec>, image: Option<Image>)
    requires Valid(w)
    ensures var m := ConstructTyped(w, position, image);
      Entry(m.id, DefaultTick) in EmitWorld(DestroyThings(m.w), 0, Tick).value.invoked
  {
    var m := ConstructTyped(w, position, image);
    var d := DestroyThings(m.w);
    DestroyThingsKeepsTypedThing(w, position, image);
    DestroyThingsSpec(m.w);
    assert Tick in d.bus.listeners by {
      SubscribeDefaultsTables(w.bus, m.id, m.w.priority);
    }
    assert d.things[m.id].active;
    ValuesSpec(d.bus.listeners[Tick]);
  }

  /** With registration (`Construct`), `destroy_things` removes the entity
      from every table and from the draw array. */
  lemma DestroyThingsRemovesConstructed(w: World, position: Option<Vec>, image: Option<Image>)
    requires Valid(w)
    ensures var m := Construct(w, position, image);
      var d := DestroyThings(m.w);
      (forall k :: k in d.bus.listeners ==> m.id !in d.bus.listeners[k])
      && (forall e :: e in d.bus.sortedDraw ==> e.id != m.id)
  {
    var m := Construct(w, position, image);
    DestroyThingsSpec(m.w);
  }
}
